=== FILE: README.md ===
# RAG chat and upload client — a Dafny model

This project models the logic of a small browser client for a
retrieval-augmented-generation service. The logic lives in three React
components:

- `RagChat.tsx` is the streaming chat reducer. Submitting a question
  appends a user turn and an empty assistant turn. It then opens one
  server-sent-event connection for that question, and each event on the
  connection appends a text fragment to the assistant turn. A `finished`
  event, a malformed payload or a transport error closes the connection.
  Clearing empties the log.
- `RagChat.js` is the older copy of the same component. Its stream URL is
  fixed. It copies event fields raw, has no parse-error handler, and keeps
  the connection ref after clearing.
- `FileUpload.tsx` handles uploads. A picked or dropped file is checked
  for size, then for extension, and then staged. A confirmed upload ends
  in a success or error record at the head of a list of the five most
  recent uploads.

Every state is an immutable record, and every handler is a pure function
from state to state. Clock readings (`Date.now()`) and server answers are
parameters. A connection is modelled as an entry with an `open` flag in
the list of all connections ever opened, and a closed connection delivers
nothing.

Files:

- `optional.dfy` holds `Option`.
- `text.dfy` models the JavaScript string calls: `trim` is `Text.Trim`
  (`TrimStart` then `TrimEnd`), `split` is `Text.Split`, `toLowerCase` is
  `Text.Lower` (ASCII only), and `split('.').pop()` is `Text.LastSegment`.
- `uri.dfy` models `encodeURIComponent` over UTF-8, plus a decoder proved
  to undo it.
- `chat_types.dfy` holds turns, events, connections and the chat state.
- `rag_chat.dfy` models `RagChat.tsx`.
- `rag_chat_legacy.dfy` models `RagChat.js`.
- `upload_validation.dfy` holds the accept/reject decision.
- `file_upload.dfy` holds the upload state, the records and the
  recent-uploads list.

Some behaviours one might expect do not hold in the code, and the model
follows the code:

- Event fields the server leaves out are not kept at their previous value.
  `RagChat.tsx` resets them to `false`/`null`, and `RagChat.js` copies them
  as absent.
- An `errorMessage` does not end a stream. Only `finished` closes it, and
  the next event clears the message again (`RagChat.ErrorMessageIsNotTerminal`).
- A parse failure sets the page's error banner, not a message on the
  assistant turn.
- Clearing does not return the page to an idle state. See Findings.

## Model

| member | source | states |
|---|---|---|
| RagChat.Submit | src/components/RagChat.tsx:50-87 | A blank-after-trim input changes nothing. Otherwise it appends the untrimmed input as a user turn, then an empty, unfinished assistant turn with null error and usage. It clears the input and the banner, sets busy, and opens one connection aimed at the assistant id, which becomes the current one. |
| Text.TrimStart | src/components/RagChat.tsx:51 | The leading half of `trim`: the result is a suffix of the input, every character removed is JavaScript whitespace, and the result does not start with whitespace. |
| Text.TrimEnd | src/components/RagChat.tsx:51 | The trailing half of `trim`: the result is a prefix of the input, every character removed is JavaScript whitespace, and the result does not end with whitespace. |
| Text.TrimEmptyIffBlank | src/components/RagChat.tsx:51 | `!input.trim()` holds exactly when every character of the input is JavaScript whitespace. |
| Text.BlankTrimsToEmpty | src/components/RagChat.tsx:51 | An input made only of whitespace trims to the empty string. |
| Text.TrimmedEmptyIsBlank | src/components/RagChat.tsx:51 | An input that trims to the empty string is made only of whitespace. |
| RagChat.StreamUrlCarriesQuestion | src/components/RagChat.tsx:83-85 | The stream URL is the endpoint, `?question=`, the encoded question and `&topK=3`. The `question` value read up to the next `&` decodes back to exactly the typed question. |
| Uri.Encode | src/components/RagChat.tsx:84 | Every character of the encoding is an unreserved character or `%`, so the value holds no `&` and cannot end the `question` parameter early. The encoding is never shorter than the input. |
| Uri.DecodeEncode | src/components/RagChat.tsx:84 | The model's decoder undoes `encodeURIComponent` on every string: `Decode(Encode(s)) == Some(s)`, so the encoder loses nothing. |
| Uri.EncodeInjective | src/components/RagChat.tsx:84 | Different questions produce different encoded query values. |
| ChatTypes.ReplaceById | src/components/RagChat.tsx:94-105 | Mapping over the log keeps its length. Every turn carrying the id is replaced by the update applied to it, and every other turn is kept as it is. The older component maps the log the same way at RagChat.js:67-78. |
| RagChat.Apply | src/components/RagChat.tsx:96-102 | An event appends its content, or `""`, to the turn. It sets `finished` to whether the event says `true`, and `errorMessage`/`usage` to the event's value, or to null when absent (or an empty message). Id, author and time are kept. |
| RagChat.OnMessage | src/components/RagChat.tsx:89-118 | A parsed event changes exactly the turns carrying the connection's target id. The log length and every other turn stay the same. A `finished` event closes the connection and clears busy. A malformed payload leaves the log alone, sets the parse-error banner, clears busy and closes the connection. |
| ChatTypes.Close | src/components/RagChat.tsx:109 | `eventSource.close()` closes connection `k` only. It keeps that connection's URL and target, and every other connection is unchanged. The same call appears at lines 116, 124, 147 and 156, and at lines 82, 91, 114 and 122 of RagChat.js. |
| RagChat.OnTransportError | src/components/RagChat.tsx:120-125 | A transport error keeps the log, sets the connection-error banner, clears busy and closes that connection only. That connection keeps its URL and target, and every other connection is unchanged. |
| RagChat.Clear | src/components/RagChat.tsx:143-150 | Clearing empties the log and the banner, closes the current connection and forgets it, and leaves busy as it was. Every connection keeps its URL and target, and the others keep their open flag. |
| RagChat.Unmount | src/components/RagChat.tsx:153-159 | Teardown closes the current connection and changes nothing else: the log, banner, input, busy flag, ref and every connection's URL and target are kept, and so is every other connection's open flag. |
| RagChat.Step | src/components/RagChat.tsx:89-159 | Typing changes only the input. Sending, clearing and teardown run their handlers. An event or a transport error runs the handler of its connection only while that connection is open; on a closed or unknown connection it changes nothing. |
| RagChat.Receive | src/components/RagChat.tsx:89-118 | A payload on a connection that does not exist or has been closed changes nothing. |
| RagChat.Dispatch | src/components/RagChat.tsx:211-225 | While busy, the page ignores typing and sending because the text area and the button are disabled. |
| RagChat.ClosedStreamIsInert | src/components/RagChat.tsx:108-110 | A closed connection changes nothing, whatever events are sent to it. |
| RagChat.TurnAfter | src/components/RagChat.tsx:94-111 | A stream never changes the target turn's id, author or timestamp. |
| RagChat.StreamFollowsTurnAfter | src/components/RagChat.tsx:94-111 | Delivering a sequence of events to an open connection turns its target turn into the turn obtained by applying the events in order, stopping after the first `finished` one. |
| RagChat.TurnAfterContent | src/components/RagChat.tsx:98 | Applying events this way appends their fragments to the content, up to and including the ending event. |
| RagChat.TurnAfterReflects | src/components/RagChat.tsx:99-101 | Applying events this way leaves the turn's `finished`, `errorMessage` and `usage` equal to those of the last event applied, defaulted. |
| RagChat.StreamAppendsFragments | src/components/RagChat.tsx:98 | After any event sequence, the target turn's content is its old content followed by the fragments of the delivered events, in order, up to the first `finished` event. Later events add nothing. |
| RagChat.StreamTouchesOnlyTarget | src/components/RagChat.tsx:94-105 | Streaming keeps the log length, every turn with another id, and the banner. |
| RagChat.StreamReflectsLastEvent | src/components/RagChat.tsx:99-101 | After streaming, the turn's `finished`, `errorMessage` and `usage` are those of the last delivered event, defaulted. With no event delivered, the turn is unchanged. |
| RagChat.StreamClosesOnFinish | src/components/RagChat.tsx:107-111 | The connection stays open exactly when no event in the sequence had `finished: true`. Once closed, busy is clear. |
| RagChat.SubmitOpensStream | src/components/RagChat.tsx:64-87 | After a non-blank submit with a fresh assistant id, the new connection is open and aimed at the new assistant turn. That turn is the only one carrying the id. |
| RagChat.SubmitThenStream | src/components/RagChat.tsx:56-105 | After a non-blank submit and any events, the new assistant turn holds exactly the concatenated fragments. All earlier turns and the user turn are unchanged. |
| RagChat.TwoEventAnswer | src/components/RagChat.tsx:89-111 | The events `"X is"` and then `" a thing."` with `finished` and usage 5/4/9 give content `"X is a thing."`, finished, no error, usage 5/4/9, a closed connection and busy cleared. |
| RagChat.LaterEventResetsUsage | src/components/RagChat.tsx:101 | A usage set by one event is reset to null by a later event without usage. |
| RagChat.ErrorMessageIsNotTerminal | src/components/RagChat.tsx:100-111 | An event carrying only an error message leaves the connection open. The next event without a message resets it to null. |
| RagChat.Init | src/components/RagChat.tsx:33-36 | The first render has an empty log and input, no banner, busy off and no connection. The state is valid. The older component starts from the same values at RagChat.js:6-9. |
| RagChat.InitInv | src/components/RagChat.tsx:33-38 | The initial state satisfies the connection invariant. |
| RagChat.DispatchKeepsInv | src/components/RagChat.tsx:50-150 | Every action the page allows keeps three facts: the ref points at an existing connection, at most the current connection is open, and an open connection implies busy. |
| RagChat.DispatchAllKeepsInv | src/components/RagChat.tsx:50-150 | The same invariant holds after any sequence of allowed actions. |
| RagChat.ClearDuringStreamFreezes | src/components/RagChat.tsx:143-150 | Clearing while busy leaves busy set with no open connection. Every later action then leaves the state unchanged. |
| RagChat.FrozenStaysFrozen | src/components/RagChat.tsx:211-225 | A busy state with no open connection, no ref, an empty log and no banner is left unchanged by every allowed action. |
| RagChat.ClearReleasingBusy | src/components/RagChat.tsx:143-150 | The corrected clear also clears busy and keeps the invariant. |
| RagChat.ClearReleasingBusyRecovers | src/components/RagChat.tsx:143-150 | After the corrected clear, typing a non-blank question and sending it gives two turns and a new open connection. |
| RagChatLegacy.Submit | src/components/RagChat.js:23-61 | A blank input is a no-op. Otherwise it appends a user turn and an empty unfinished assistant turn, clears the input, and opens a connection on the fixed local address. |
| RagChatLegacy.StreamUrlIsLocalEndpoint | src/components/RagChat.js:57-59 | The fixed URL is the typed component's URL with the endpoint `http://localhost:8080/api/chat/rag/stream`. |
| RagChatLegacy.SubmitMatchesTyped | src/components/RagChat.js:23-61 | Submitting in the older component equals submitting in the typed one aimed at the local endpoint. |
| RagChatLegacy.Apply | src/components/RagChat.js:69-75 | An event appends its content, or `""`, and copies `finished`, `errorMessage` and `usage` raw, absent included. |
| RagChatLegacy.Normalize | src/components/RagChat.js:72-74 | Applying the typed defaults to a raw turn keeps its content and id. |
| RagChatLegacy.ApplyAgreesUpToDefaults | src/components/RagChat.js:67-78 | The typed update equals the raw update followed by defaulting `finished`, `errorMessage` and `usage`. |
| RagChatLegacy.AbsentFieldsStayAbsent | src/components/RagChat.js:72-74 | An event without `finished` and `usage` leaves them absent. The typed component stores `false`/`null` instead. |
| RagChatLegacy.OnMessage | src/components/RagChat.js:63-85 | A malformed payload throws before any update, so the state is unchanged and the connection stays open. A parsed event updates only the target turns. A `finished` event closes the connection and clears busy. |
| RagChatLegacy.Clear | src/components/RagChat.js:110-116 | Clearing empties the log and the banner and closes the current connection. The ref still points at it and busy is unchanged. Every connection keeps its URL and target, and the others keep their open flag. |
| RagChatLegacy.Step | src/components/RagChat.js:23-125 | Typing changes only the input. Sending and clearing run this component's handlers, and teardown runs the shared one. An event or a transport error runs the handler of its connection only while that connection is open; on a closed or unknown connection it changes nothing. |
| RagChatLegacy.Receive | src/components/RagChat.js:63-85 | A payload on a connection that does not exist or has been closed changes nothing. |
| RagChatLegacy.Dispatch | src/components/RagChat.js:177-192 | While busy, the page ignores typing and sending because the text area and the button are disabled. |
| RagChatLegacy.DispatchKeepsInv | src/components/RagChat.js:23-125 | Every action this page allows keeps the connection invariant. The ref points at an existing connection, at most the current connection is open, and an open connection implies busy. |
| RagChatLegacy.DispatchAllKeepsInv | src/components/RagChat.js:23-125 | The same invariant holds after any sequence of allowed actions. |
| RagChatLegacy.SessionThenClearFreezes | src/components/RagChat.js:110-116 | From a fresh page, after any sequence of allowed actions that leaves the page busy, clearing leaves busy set, and every later action leaves the state unchanged. |
| RagChatLegacy.ClearDuringStreamFreezes | src/components/RagChat.js:110-116 | Clearing while busy leaves busy set with no open connection, and every later allowed action leaves the state unchanged. |
| RagChatLegacy.FrozenStaysFrozen | src/components/RagChat.js:177-192 | A busy state with no open connection, an empty log and no banner is left unchanged by every allowed action, whatever the ref holds. |
| RagChatLegacy.ClosedStreamIsInert | src/components/RagChat.js:81-84 | A closed connection changes nothing, whatever it is sent. |
| RagChatLegacy.ReceiveOneKeepsTarget | src/components/RagChat.js:63-85 | One payload keeps the connection aimed at the same turn. A parsed event updates that turn, and a malformed one changes nothing. |
| RagChatLegacy.ParsedFragmentsStep | src/components/RagChat.js:64-84 | A malformed first payload adds no text. A parsed one adds its fragment, and the later payloads add theirs only if that event does not end the stream. |
| RagChatLegacy.StreamAppendsFragments | src/components/RagChat.js:71 | Malformed payloads are skipped without closing the connection. The content grows by the fragments of the parsed events up to the first `finished`. |
| RagChatLegacy.ContentAgreesWithTyped | src/components/RagChat.js:67-78 | For well-formed events, both components stream the same content into the assistant turn. |
| RagChatLegacy.ParsedEventsOfParsed | src/components/RagChat.js:64 | When every payload parses, the parsed events are exactly the events sent. |
| UploadValidation.Validate | src/components/FileUpload.tsx:58-69 | A file is refused for size iff `size > maxMB*1024*1024`, so exactly the limit passes. It is refused for type iff it is within the limit and its extension is not an exact allow-list entry. It is accepted iff both checks pass. Size is checked first. |
| UploadValidation.Extension | src/components/FileUpload.tsx:65 | The extension starts with a dot and is at most one character longer than the name. After the dot it holds no further dot and no upper-case ASCII letter. |
| UploadValidation.ExtensionIsLastPiece | src/components/FileUpload.tsx:65 | The extension is a dot plus the lower-cased last piece of `name.split('.')`. |
| Text.Lower | src/components/FileUpload.tsx:65 | `toLowerCase` keeps the length and maps each ASCII capital to its small letter, leaving every other character as it is. |
| Text.JoinSplit | src/components/FileUpload.tsx:65 | Joining the pieces of `split` with the separator gives back the string. |
| Text.LastSegmentIsLastPiece | src/components/FileUpload.tsx:65 | The text after the last separator is the last piece of `split`, and is the whole string when there is no separator. |
| UploadValidation.ExtensionOfSuffix | src/components/FileUpload.tsx:65 | A name ending in a dot and a dot-free suffix has that suffix, lower-cased, as its extension. |
| UploadValidation.ExtensionOfDotlessName | src/components/FileUpload.tsx:65 | A name without a dot yields `"." + lower(name)`. |
| UploadValidation.ExtensionHasNoUpperCase | src/components/FileUpload.tsx:65-66 | An allow-list entry with an upper-case letter never matches any file. |
| UploadValidation.ExtensionIgnoresCase | src/components/FileUpload.tsx:65 | Names that differ only in the letter case of the extension get the same extension. |
| UploadValidation.PageSizeBoundary | src/components/FileUpload.tsx:59-62 | With the upload page's 30 MB limit, 31457280 bytes passes and 31457281 bytes is refused for size, whatever the name. |
| UploadValidation.PageAcceptsUpperCasePdf | src/components/FileUpload.tsx:65-66 | With `['.pdf', '.md']`, `report.PDF` is accepted. |
| UploadValidation.PageRefusesExe | src/components/FileUpload.tsx:65-69 | With `['.pdf', '.md']`, `report.exe` is refused for its type. |
| UploadValidation.PageRefusesDotlessName | src/components/FileUpload.tsx:65-69 | `README` has extension `.readme` and is refused. |
| FileUpload.SelectFile | src/components/FileUpload.tsx:52-81 | No file means nothing happens. A file over the limit gives the size notice and leaves the state unchanged. A bad type gives the type notice and leaves the state unchanged. An accepted file is staged. |
| FileUpload.Stage | src/components/FileUpload.tsx:72-75 | Staging sets the file, defaults the display name to the file's name, empties the description and opens the dialog. |
| FileUpload.DropFile | src/components/FileUpload.tsx:160-186 | With no dropped file nothing happens. Otherwise the first file is judged by `Validate`: it is refused with the size or the type notice and the state is unchanged, or it is staged. |
| FileUpload.DropAgreesWithSelect | src/components/FileUpload.tsx:168-184 | Dropping files gives the same state and notice as picking them, for every file list. |
| FileUpload.EditName | src/components/FileUpload.tsx:344 | Editing the display name sets it and changes nothing else. |
| FileUpload.EditDescription | src/components/FileUpload.tsx:353 | Editing the description sets it and changes nothing else. |
| FileUpload.CancelDialog | src/components/FileUpload.tsx:335 | Cancelling hides the dialog and changes nothing else, so the staged file stays staged. |
| FileUpload.Init | src/components/FileUpload.tsx:35-48 | The first render has an empty recent-uploads list, nothing staged, no upload running at 0% progress, the dialog closed, and an empty display name and description. |
| FileUpload.DefaultPropsBoundary | src/components/FileUpload.tsx:32-33 | With the default props, 10 MB and `['.pdf', '.doc', '.docx', '.txt', '.md']`, a 10 MB `notes.txt` picked on a fresh page is staged with the dialog open. One byte more is refused for its size, whatever the name, and leaves the page as it was. |
| FileUpload.ConfirmUpload | src/components/FileUpload.tsx:83-97 | With no staged file, nothing happens. Otherwise the dialog closes, the upload starts at 0%, and one request carries the staged file with the edited name and description. The staged file, the edited name and description and the list are kept, and nothing else changes. |
| FileUpload.FailureText | src/components/FileUpload.tsx:132-136 | The failure message is the server's message, else the error's own, else the default text. It is never empty. |
| FileUpload.Push | src/components/FileUpload.tsx:124-129 | The new list has the record at its head, followed by a prefix of the old list in order. Its length is `min(old+1, 5)`. |
| FileUpload.RecordFor | src/components/FileUpload.tsx:119-145 | A record has status `success` iff the answer says success. On success its document id is the answer's data, otherwise `""`. Its name is the file's original name. |
| FileUpload.CompleteUpload | src/components/FileUpload.tsx:119-152 | The outcome's record is pushed and the parent is told the id or the failure text. In every case uploading stops, progress returns to 0 and the staged file is dropped. The dialog flag, the edited name and the description are kept, and nothing else changes. |
| FileUpload.UploadRecordsOriginalName | src/components/FileUpload.tsx:87-152 | A confirmed upload records the staged file's own name, whatever name was edited. The rest of the list is a prefix of the old list. |
| FileUpload.PushAllKeepsNewestFive | src/components/FileUpload.tsx:140-145 | After any sequence of uploads, the list is the five most recent records, newest first, followed by what fits of the old list. |
| FileUpload.SixUploadsDropTheOldest | src/components/FileUpload.tsx:124-129 | After six uploads into an empty list, it holds uploads six down to two, and the first is gone. |

## Left out

- Rendering, CSS, antd toasts and dialogs, and scrolling to the bottom are presentation only. A toast is kept as its data (`Notice`), not as its formatted text.
- The browser's `EventSource` and `axios` are modelled only through their effects. A connection is an open flag, and a closed connection delivers nothing. Server answers are `Outcome` values.
- The `catch` around building the stream URL and `new EventSource` (RagChat.tsx:81-131, RagChat.js:54-98) is left out. It fires when the browser rejects the URL. It also fires when `encodeURIComponent` throws `URIError` on a lone surrogate in the question. On that path the two turns stay appended and the input stays cleared. The banner shows `发送消息时出错: …`, busy is cleared and no connection opens. Dafny's `char` is a Unicode scalar value and cannot hold a lone surrogate, so `Uri.Encode` is total and the model has no such input.
- `JSON.parse` is abstracted into `Payload`: either a typed event or `Malformed`, which stands for a parse that throws. Fields of the wrong JSON type, such as a numeric `content`, are not modelled.
- A payload that parses to `null` is not modelled. The state updater queued at RagChat.tsx:94 (RagChat.js:67) reads `data.content` and throws while React renders, and nothing catches it, so the component tree is torn down. Before that, RagChat.tsx's `if (data.finished)` at line 108 throws into the catch at 112-117, which sets the banner and closes the connection.
- `Date.now()` and `new Date()` are parameters. Each timestamp is taken to equal the clock reading used for that turn's id.
- The upload progress percentage is left out: it is a floating-point ratio shown only in the UI. Only its resets to 0 are modelled.
- Clearing the file input after an accepted pick is a DOM side effect and is left out.
- `src/App.tsx` (routing) and `src/index.tsx` (bootstrap) are not part of this model. `src/pages/FileUploadPage.tsx` contributes only its props, 30 MB and `['.pdf', '.md']`, used as concrete instances. For `src/config/api.ts`, the endpoint is a parameter.
- UploadValidation.Validate: lower-cases ASCII letters only. `toLowerCase` on other characters is a foreign Unicode table. For example, the Kelvin sign lower-cases to `k`, which no allow-list entry here ends with.
- UploadValidation.Validate: takes the limit in whole megabytes. A fractional `maxFileSize` is not modelled.
- Uri.DecodeEncode: the decoder is proved only to undo the encoder. It is not claimed to match `decodeURIComponent` on every input.

## Findings

| source | as written | input that shows it | evidently intended | confidence | as-written member | corrected member |
|---|---|---|---|---|---|---|
| src/components/RagChat.tsx:143-150 | `clearChat` closes and forgets the connection but never clears `isLoading` | submit "hi", then press clear before the answer finishes | clearing returns the page to a state where a new question can be typed and sent | high; not executed | RagChat.ClearDuringStreamFreezes | RagChat.ClearReleasingBusyRecovers |

Once the connection is closed, no handler will ever clear the busy flag, and the text area and send button stay disabled. `RagChat.Step` keeps the code's `Clear`, so the model matches the component as written. `RagChat.ClearReleasingBusy` is the corrected definition, and its recovery is proved. The older component's `clearChat` (RagChat.js:110-116) freezes the page the same way. `RagChatLegacy.DispatchAllKeepsInv` shows that this page keeps the same connection invariant, and `RagChatLegacy.SessionThenClearFreezes` shows the freeze is reachable from a fresh page.

=== FILE: chat_types.dfy ===
/** The data both chat components share: chat turns, the events a stream
    delivers, the connections, and the chat state. */
module ChatTypes {
  import opened Optional

  /** A slot of a JavaScript object: absent (`undefined`), `null`, or a value. */
  datatype Js<+T> = Undefined | Null | Value(v: T)

  datatype Usage = Usage(inputTokens: int, outputTokens: int, totalTokens: int)

  /** One entry of the conversation. `id` and `timestamp` are clock readings
      taken when the turn is created. */
  datatype Turn = Turn(
    id: int,
    content: string,
    isUser: bool,
    finished: Js<bool>,
    errorMessage: Js<string>,
    usage: Js<Usage>,
    timestamp: int)

  /** The JSON object carried by one server-sent event. */
  datatype StreamEvent = StreamEvent(
    content: Js<string>,
    finished: Js<bool>,
    errorMessage: Js<string>,
    usage: Js<Usage>)

  /** What `JSON.parse` makes of one event's data: `Malformed` when parsing
      throws, otherwise the parsed event. */
  datatype Payload = Malformed | Parsed(event: StreamEvent)

  /** One `EventSource`: where it points, the id of the assistant turn its
      handlers update, and whether it still delivers events. */
  datatype Stream = Stream(url: string, target: int, open: bool)

  /** The component's state. `streams` lists every connection ever opened;
      `current` is the one the connection ref holds, if any. */
  datatype ChatState = ChatState(
    messages: seq<Turn>,
    input: string,
    loading: bool,
    error: Option<string>,
    streams: seq<Stream>,
    current: Option<nat>)

  /** The connection ref points at a connection that exists. */
  predicate Valid(s: ChatState) {
    s.current.Some? ==> s.current.value < |s.streams|
  }

  /** A connection that exists and has not been closed. */
  predicate Live(s: ChatState, k: nat) {
    k < |s.streams| && s.streams[k].open
  }

  /** `data.content || ''`. */
  function Fragment(e: StreamEvent): string {
    match e.content
    case Value(c) => c
    case _ => ""
  }

  /** JavaScript truthiness of a boolean field that may be absent: only a
      present `true` counts, so `x || false` is `Value(Truthy(x))`. */
  predicate Truthy(f: Js<bool>) {
    f == Value(true)
  }

  /** `if (data.finished)`: only a present `true` ends the stream. */
  predicate EndsStream(e: StreamEvent) {
    Truthy(e.finished)
  }

  /** The fragments of `es`, in delivery order. */
  function Fragments(es: seq<StreamEvent>): string {
    if es == [] then "" else Fragment(es[0]) + Fragments(es[1..])
  }

  /** The events a stream actually delivers out of `es`: all of them up to
      and including the first that ends the stream. */
  function UpToEnd(es: seq<StreamEvent>): (r: seq<StreamEvent>)
    ensures |r| <= |es| && r == es[..|r|]
    ensures forall i :: 0 <= i < |r| - 1 ==> !EndsStream(r[i])
    ensures |r| < |es| ==> r != [] && EndsStream(r[|r| - 1])
  {
    if es == [] then []
    else if EndsStream(es[0]) then [es[0]]
    else [es[0]] + UpToEnd(es[1..])
  }

  /** What the first event adds to the delivered text: its fragment, and
      then the rest only when it did not end the stream. */
  lemma FragmentsUpToEndStep(es: seq<StreamEvent>)
    requires es != []
    ensures Fragments(UpToEnd(es)) ==
      Fragment(es[0]) + (if EndsStream(es[0]) then "" else Fragments(UpToEnd(es[1..])))
  {
    if EndsStream(es[0]) {
      assert Fragments([es[0]]) == Fragment(es[0]) + Fragments([]);
    } else {
      var d := UpToEnd(es[1..]);
      assert ([es[0]] + d)[1..] == d;
    }
  }

  function UserTurn(id: int, content: string, time: int): Turn {
    Turn(id, content, true, Undefined, Undefined, Undefined, time)
  }

  /** The assistant turn a submission creates before any event arrives. */
  function PendingTurn(id: int, time: int): Turn {
    Turn(id, "", false, Value(false), Null, Null, time)
  }

  /** No turn of `turns` carries `id`. */
  predicate Fresh(id: int, turns: seq<Turn>) {
    forall i :: 0 <= i < |turns| ==> turns[i].id != id
  }

  /** `turns.map(m => m.id === id ? f(m) : m)`. */
  function ReplaceById(turns: seq<Turn>, id: int, f: Turn -> Turn): (r: seq<Turn>)
    ensures |r| == |turns|
    ensures forall i {:trigger r[i]} :: 0 <= i < |turns| && turns[i].id != id ==> r[i] == turns[i]
    ensures forall i {:trigger r[i]} :: 0 <= i < |turns| && turns[i].id == id ==> r[i] == f(turns[i])
  {
    if turns == [] then []
    else
      [if turns[0].id == id then f(turns[0]) else turns[0]] + ReplaceById(turns[1..], id, f)
  }

  /** `eventSource.close()` on connection `k`. */
  function Close(streams: seq<Stream>, k: nat): (r: seq<Stream>)
    requires k < |streams|
    ensures |r| == |streams| && !r[k].open
    ensures r[k].url == streams[k].url && r[k].target == streams[k].target
    ensures forall i {:trigger r[i]} :: 0 <= i < |streams| && i != k ==> r[i] == streams[i]
  {
    streams[k := streams[k].(open := false)]
  }
}

=== FILE: file_upload.dfy ===
/** The upload component `FileUpload.tsx`: a chosen or dropped file is
    validated and staged, the user may edit its display name and
    description, and a confirmed upload ends in a success or error record
    at the head of a list of the five most recent uploads. */
module FileUpload {
  import opened Optional
  import opened UploadValidation
  import Text

  datatype Status = Success | Error

  /** An entry of the recent-uploads list; `timestamp` is a clock reading. */
  datatype UploadRecord = UploadRecord(name: string, documentId: string, status: Status, timestamp: int)

  /** The component's props that matter here. */
  datatype Props = Props(maxMB: nat, accepted: seq<string>)

  const DefaultProps: Props := Props(10, [".pdf", ".doc", ".docx", ".txt", ".md"])

  /** How many records the list keeps. */
  const RecentLimit: nat := 5

  datatype UploadState = UploadState(
    uploading: bool,
    progress: int,
    recent: seq<UploadRecord>,
    modalVisible: bool,
    selected: Option<File>,
    fileName: string,
    description: string)

  /** The state on first render: nothing uploading, staged or listed. */
  function Init(): (s: UploadState)
    ensures s.recent == [] && s.selected == None && !s.uploading && !s.modalVisible
    ensures s.progress == 0 && s.fileName == "" && s.description == ""
  {
    UploadState(false, 0, [], false, None, "", "")
  }

  /** The toast a rejected file produces. */
  datatype Notice = SizeLimitExceeded(maxMB: nat) | TypeNotSupported(accepted: seq<string>)

  /** Stages an accepted file: the display name starts as the file's own
      name, the description empty, and the details dialog opens. */
  function Stage(s: UploadState, f: File): (r: UploadState)
    ensures r.selected == Some(f) && r.fileName == f.name && r.description == "" && r.modalVisible
    ensures r.recent == s.recent && r.uploading == s.uploading && r.progress == s.progress
  {
    s.(selected := Some(f), fileName := f.name, description := "", modalVisible := true)
  }

  /** `handleFileSelect` on the picked files: with none nothing happens; the
      first file is checked for size, then for type; a refused file leaves
      the state as it was and yields a notice, an accepted one is staged. */
  function SelectFile(s: UploadState, props: Props, files: seq<File>): (r: (UploadState, Option<Notice>))
    ensures files == [] ==> r == (s, None)
    ensures files != [] ==>
      match Validate(files[0], props.maxMB, props.accepted)
      case TooLarge => r == (s, Some(SizeLimitExceeded(props.maxMB)))
      case UnsupportedType => r == (s, Some(TypeNotSupported(props.accepted)))
      case Accepted => r == (Stage(s, files[0]), None)
  {
    if |files| == 0 then (s, None)
    else
      var file := files[0];
      if file.size > SizeLimit(props.maxMB) then (s, Some(SizeLimitExceeded(props.maxMB)))
      else
        var ext := Extension(file.name);
        if ext !in props.accepted then (s, Some(TypeNotSupported(props.accepted)))
        else (Stage(s, file), None)
  }

  /** `handleDrop` on the dropped files, which repeats the same checks. */
  function DropFile(s: UploadState, props: Props, files: seq<File>): (r: (UploadState, Option<Notice>))
    ensures files == [] ==> r == (s, None)
    ensures files != [] ==>
      match Validate(files[0], props.maxMB, props.accepted)
      case TooLarge => r == (s, Some(SizeLimitExceeded(props.maxMB)))
      case UnsupportedType => r == (s, Some(TypeNotSupported(props.accepted)))
      case Accepted => r == (Stage(s, files[0]), None)
  {
    if |files| > 0 then
      var file := files[0];
      if file.size > SizeLimit(props.maxMB) then (s, Some(SizeLimitExceeded(props.maxMB)))
      else if Extension(file.name) !in props.accepted then (s, Some(TypeNotSupported(props.accepted)))
      else (Stage(s, file), None)
    else (s, None)
  }

  /** Dropping a file and picking it reach the same decision and state. */
  lemma DropAgreesWithSelect(s: UploadState, props: Props, files: seq<File>)
    ensures DropFile(s, props, files) == SelectFile(s, props, files)
  {
  }

  /** With the component's default props, a 10 MB `notes.txt` picked on a
      fresh page is staged with the dialog open, and one byte more is refused
      for its size whatever its name, with nothing staged. */
  lemma DefaultPropsBoundary(name: string)
    ensures var (s, n) := SelectFile(Init(), DefaultProps, [File("notes.txt", 10485760)]);
      s.selected == Some(File("notes.txt", 10485760)) && s.fileName == "notes.txt"
      && s.modalVisible && n == None
    ensures SelectFile(Init(), DefaultProps, [File(name, 10485761)]) == (Init(), Some(SizeLimitExceeded(10)))
  {
    assert Text.Lower("txt") == "txt";
    PageAcceptsExtension("notes", "txt", ".txt");
    assert "notes.txt" == "notes" + "." + "txt";
  }

  /** Editing the display name in the dialog. */
  function EditName(s: UploadState, name: string): (r: UploadState)
    ensures r.fileName == name && r.(fileName := s.fileName) == s
  {
    s.(fileName := name)
  }

  /** Editing the description in the dialog. */
  function EditDescription(s: UploadState, text: string): (r: UploadState)
    ensures r.description == text && r.(description := s.description) == s
  {
    s.(description := text)
  }

  /** Cancelling the dialog hides it; the staged file stays staged. */
  function CancelDialog(s: UploadState): (r: UploadState)
    ensures !r.modalVisible && r.selected == s.selected
    ensures r.(modalVisible := s.modalVisible) == s
  {
    s.(modalVisible := false)
  }

  /** The multipart form sent: the file, the display name, the description. */
  datatype UploadRequest = UploadRequest(file: File, fileName: string, description: string)

  /** `handleUpload` and the start of `uploadFile`: with no staged file nothing
      happens; otherwise the dialog closes, the upload starts at 0% and one
      request carries the staged file with the edited name and description. */
  function ConfirmUpload(s: UploadState): (r: (UploadState, Option<UploadRequest>))
    ensures s.selected.None? ==> r == (s, None)
    ensures s.selected.Some? ==>
      && r.1 == Some(UploadRequest(s.selected.value, s.fileName, s.description))
      && r.0.uploading && r.0.progress == 0 && !r.0.modalVisible
      && r.0.recent == s.recent && r.0.selected == s.selected
      && r.0.fileName == s.fileName && r.0.description == s.description
      && r.0.(modalVisible := s.modalVisible, uploading := s.uploading, progress := s.progress) == s
  {
    match s.selected
    case None => (s, None)
    case Some(file) =>
      (s.(modalVisible := false, uploading := true, progress := 0),
       Some(UploadRequest(file, s.fileName, s.description)))
  }

  /** The JSON body of the upload endpoint's answer. */
  datatype Response = Response(success: bool, message: string, data: string)

  /** How the request ended: an answer, or a thrown error carrying the
      server's message (when the server sent one) and the error's own. */
  datatype Outcome =
    | Answered(response: Response)
    | Failed(serverMessage: Option<string>, errorMessage: string)

  /** The callback the parent is notified through. */
  datatype Report = Uploaded(documentId: string) | UploadFailed(message: string)

  const DefaultFailureText: string := "上传失败"

  /** `error.response?.data?.message || error.message || '上传失败'`, where an
      unsuccessful answer is rethrown as an error with the answer's message. */
  function FailureText(o: Outcome): (t: string)
    requires !(o.Answered? && o.response.success)
    ensures t != ""
  {
    match o
    case Answered(resp) => if resp.message != "" then resp.message else DefaultFailureText
    case Failed(server, own) =>
      if server.Some? && server.value != "" then server.value
      else if own != "" then own
      else DefaultFailureText
  }

  /** `[rec, ...prev.slice(0, 4)]`. */
  function Push(rec: UploadRecord, prev: seq<UploadRecord>): (r: seq<UploadRecord>)
    ensures |r| == if |prev| < RecentLimit then |prev| + 1 else RecentLimit
    ensures r[0] == rec
    ensures r[1..] == prev[..|r| - 1]
  {
    [rec] + prev[..if |prev| < 4 then |prev| else 4]
  }

  /** The record an outcome produces: the file's original name, not the
      edited one, with the document id on success and none on failure. */
  function RecordFor(file: File, o: Outcome, now: int): (rec: UploadRecord)
    ensures rec.name == file.name && rec.timestamp == now
    ensures rec.status == Success <==> o.Answered? && o.response.success
    ensures rec.documentId == if rec.status == Success then o.response.data else ""
  {
    if o.Answered? && o.response.success then UploadRecord(file.name, o.response.data, Success, now)
    else UploadRecord(file.name, "", Error, now)
  }

  /** The end of `uploadFile` for `file`: the outcome's record goes to the head
      of the list, the parent is told, and in every case the upload stops,
      progress returns to 0 and the staged file is dropped. */
  function CompleteUpload(s: UploadState, file: File, o: Outcome, now: int): (r: (UploadState, Report))
    ensures r.0.recent == Push(RecordFor(file, o, now), s.recent)
    ensures !r.0.uploading && r.0.progress == 0 && r.0.selected == None
    ensures r.0.modalVisible == s.modalVisible && r.0.fileName == s.fileName
    ensures r.0.description == s.description
    ensures r.0.(recent := s.recent, uploading := s.uploading, progress := s.progress, selected := s.selected) == s
    ensures o.Answered? && o.response.success ==> r.1 == Uploaded(o.response.data)
    ensures !(o.Answered? && o.response.success) ==> r.1 == UploadFailed(FailureText(o))
  {
    var report :=
      if o.Answered? && o.response.success then Uploaded(o.response.data)
      else UploadFailed(FailureText(o));
    (s.(recent := Push(RecordFor(file, o, now), s.recent),
        uploading := false, progress := 0, selected := None),
     report)
  }

  /** A confirmed upload from start to end: the record names the staged file
      as it was chosen, even when the display name was edited. */
  lemma UploadRecordsOriginalName(s: UploadState, o: Outcome, now: int)
    requires s.selected.Some?
    ensures var (s1, req) := ConfirmUpload(s);
      var (s2, _) := CompleteUpload(s1, req.value.file, o, now);
      && s2.recent[0].name == s.selected.value.name
      && s2.recent[1..] == s.recent[..|s2.recent| - 1]
      && s2.selected == None && !s2.uploading
  {
  }

  // ----- the recent-uploads list -----

  /** The list after recording `recs`, oldest first, on top of `prev`. */
  function PushAll(prev: seq<UploadRecord>, recs: seq<UploadRecord>): seq<UploadRecord>
    decreases |recs|
  {
    if recs == [] then prev else PushAll(Push(recs[0], prev), recs[1..])
  }

  function Reverse<T>(xs: seq<T>): (r: seq<T>)
    ensures |r| == |xs|
    ensures forall i :: 0 <= i < |xs| ==> r[i] == xs[|xs| - 1 - i]
  {
    if xs == [] then [] else Reverse(xs[1..]) + [xs[0]]
  }

  /** The first `n` elements, or all of them when there are fewer. */
  function Take<T>(xs: seq<T>, n: nat): seq<T> {
    if |xs| <= n then xs else xs[..n]
  }

  /** The list always holds the five most recent records, newest first:
      after recording `recs` it is the first five of `recs` reversed followed
      by the old list. */
  lemma {:induction false} PushAllKeepsNewestFive(prev: seq<UploadRecord>, recs: seq<UploadRecord>)
    requires |prev| <= RecentLimit
    ensures PushAll(prev, recs) == Take(Reverse(recs) + prev, RecentLimit)
    decreases |recs|
  {
    if recs != [] {
      var p1 := Push(recs[0], prev);
      PushAllKeepsNewestFive(p1, recs[1..]);
      var a := Reverse(recs[1..]);
      assert Reverse(recs) == a + [recs[0]];
      assert p1 == Take([recs[0]] + prev, RecentLimit);
      TakeAppendTake(a, [recs[0]] + prev, RecentLimit);
      assert a + ([recs[0]] + prev) == Reverse(recs) + prev;
    }
  }

  lemma TakeAppendTake<T>(a: seq<T>, b: seq<T>, n: nat)
    ensures Take(a + Take(b, n), n) == Take(a + b, n)
  {
    if |b| > n {
      if |a| >= n {
        assert (a + Take(b, n))[..n] == a[..n];
        assert (a + b)[..n] == a[..n];
      } else {
        assert (a + Take(b, n))[..n] == a + b[..n - |a|];
        assert (a + b)[..n] == a + b[..n - |a|];
      }
    }
  }

  /** Six uploads in a row: the list holds the last five, newest first, and
      the first upload's record is gone. */
  lemma SixUploadsDropTheOldest(r1: UploadRecord, r2: UploadRecord, r3: UploadRecord,
                                r4: UploadRecord, r5: UploadRecord, r6: UploadRecord)
    ensures PushAll([], [r1, r2, r3, r4, r5, r6]) == [r6, r5, r4, r3, r2]
  {
    PushAllKeepsNewestFive([], [r1, r2, r3, r4, r5, r6]);
    assert Reverse([r1, r2, r3, r4, r5, r6]) == [r6, r5, r4, r3, r2, r1];
  }
}

=== FILE: optional.dfy ===
/** A value that may be missing. */
module Optional {

  datatype Option<+T> = None | Some(value: T)
}

=== FILE: rag_chat.dfy ===
/** The streaming chat component `RagChat.tsx`: a user question becomes a
    user turn and an empty assistant turn, and the answer is streamed into
    the assistant turn, event by event, over one server-sent-event
    connection per question. */
module RagChat {
  import opened Optional
  import opened Text
  import Uri
  import opened ChatTypes

  const ParseErrorText: string := "解析服务器响应时出错"
  const ConnectionErrorText: string := "连接服务器时出错，请检查网络连接"

  /** The query after the endpoint up to the question's value. */
  const QuestionKey: string := "?question="
  /** What follows the question: the fixed number of retrieved documents. */
  const TopKSuffix: string := "&topK=3"

  /** The state on first render: an empty log and input, no banner, not
      busy, and no connection opened yet. */
  function Init(): (s: ChatState)
    ensures Valid(s) && s.messages == [] && !s.loading
    ensures s.input == "" && s.error == None && s.streams == [] && s.current == None
  {
    ChatState([], "", false, None, [], None)
  }

  /** The URL the stream is opened on. */
  function StreamUrl(endpoint: string, question: string): string {
    endpoint + QuestionKey + Uri.Encode(question) + TopKSuffix
  }

  /** The characters of `url` from `from` up to the next `&` or the end:
      the value of the query parameter that starts there. */
  function ValueAt(url: string, from: nat): string
    decreases |url| - from
  {
    if from >= |url| || url[from] == '&' then "" else [url[from]] + ValueAt(url, from + 1)
  }

  lemma {:induction false} ValueAtStopsAtAmpersand(pre: string, v: string, post: string)
    requires '&' !in v && (post == [] || post[0] == '&')
    ensures ValueAt(pre + v + post, |pre|) == v
    decreases |v|
  {
    var url := pre + v + post;
    if v == [] {
      assert url[|pre|..] == post;
    } else {
      assert url[|pre|] == v[0];
      assert url == (pre + [v[0]]) + v[1..] + post;
      ValueAtStopsAtAmpersand(pre + [v[0]], v[1..], post);
      assert [v[0]] + v[1..] == v;
    }
  }

  /** A server reading the `question` parameter of the stream URL gets back
      exactly the question typed, whatever characters it holds. */
  lemma StreamUrlCarriesQuestion(endpoint: string, question: string)
    ensures var url := StreamUrl(endpoint, question);
      && url[..|endpoint| + |QuestionKey|] == endpoint + QuestionKey
      && url[|url| - |TopKSuffix|..] == TopKSuffix
      && Uri.Decode(ValueAt(url, |endpoint| + |QuestionKey|)) == Some(question)
  {
    var pre := endpoint + QuestionKey;
    var enc := Uri.Encode(question);
    var url := StreamUrl(endpoint, question);
    assert url == pre + enc + TopKSuffix;
    assert url[..|pre|] == pre;
    assert url[|url| - |TopKSuffix|..] == TopKSuffix;
    assert '&' !in enc by {
      forall i | 0 <= i < |enc|
        ensures enc[i] != '&'
      {
        assert Uri.IsEncoded(enc[i]);
      }
    }
    ValueAtStopsAtAmpersand(pre, enc, TopKSuffix);
    Uri.DecodeEncode(question);
  }

  /** `sendMessage`. A blank input does nothing; `!inputValue.trim()` is
      decided by `Blank`, which `Text.TrimEmptyIffBlank` shows equivalent. Otherwise the input, as
      typed and untrimmed, becomes a user turn, an empty assistant turn
      follows it, the input is cleared and a connection opens for the
      question; `userClock` and `aiClock` are the two `Date.now()` readings. */
  function Submit(s: ChatState, endpoint: string, userClock: int, aiClock: int): (r: ChatState)
    ensures Valid(s) ==> Valid(r)
    ensures Blank(s.input) ==> r == s
    ensures !Blank(s.input) ==>
      && r.messages == s.messages + [UserTurn(userClock, s.input, userClock), PendingTurn(aiClock + 1, aiClock)]
      && r.input == "" && r.loading && r.error == None
      && r.streams == s.streams + [Stream(StreamUrl(endpoint, s.input), aiClock + 1, true)]
      && r.current == Some(|s.streams|)
  {
    if Blank(s.input) then s
    else
      var user := UserTurn(userClock, s.input, userClock);
      var assistant := PendingTurn(aiClock + 1, aiClock);
      var stream := Stream(StreamUrl(endpoint, s.input), aiClock + 1, true);
      s.(loading := true, error := None,
         messages := s.messages + [user, assistant],
         input := "",
         streams := s.streams + [stream],
         current := Some(|s.streams|))
  }

  /** `data.errorMessage || null`: an empty message counts as none. */
  function MessageOrNull(m: Js<string>): Js<string> {
    if m.Value? && m.v != "" then m else Null
  }

  /** `data.usage || null`. */
  function UsageOrNull(u: Js<Usage>): Js<Usage> {
    if u.Value? then u else Null
  }

  /** The update one event makes to the assistant turn: the fragment is
      appended, and `finished`, `errorMessage` and `usage` are replaced by
      the event's values, absent ones by `false` or `null` rather than kept. */
  function Apply(m: Turn, e: StreamEvent): (r: Turn)
    ensures r.content == m.content + Fragment(e)
    ensures r.id == m.id && r.isUser == m.isUser && r.timestamp == m.timestamp
    ensures r.finished == Value(EndsStream(e))
    ensures r.errorMessage.Value? <==> e.errorMessage.Value? && e.errorMessage.v != ""
    ensures r.errorMessage.Value? ==> r.errorMessage == e.errorMessage
    ensures r.errorMessage.Null? <==> !r.errorMessage.Value?
    ensures r.usage.Value? <==> e.usage.Value?
    ensures r.usage.Value? ==> r.usage == e.usage
    ensures r.usage.Null? <==> !r.usage.Value?
  {
    m.(content := m.content + Fragment(e),
       finished := Value(EndsStream(e)),
       errorMessage := MessageOrNull(e.errorMessage),
       usage := UsageOrNull(e.usage))
  }

  /** The `onmessage` handler of connection `k`. A parsed event updates every
      turn carrying the connection's target id and nothing else; an event
      that ends the stream closes it and clears the busy flag. A malformed
      payload leaves the conversation alone, shows the parse error, clears
      the busy flag and closes the connection. */
  function OnMessage(s: ChatState, k: nat, p: Payload): (r: ChatState)
    requires k < |s.streams|
    ensures Valid(s) ==> Valid(r)
    ensures |r.streams| == |s.streams| && r.current == s.current && r.input == s.input
    ensures forall i {:trigger r.streams[i]} :: 0 <= i < |s.streams| && i != k ==> r.streams[i] == s.streams[i]
    ensures r.streams[k].url == s.streams[k].url && r.streams[k].target == s.streams[k].target
    ensures p.Malformed? ==>
      && r.messages == s.messages && r.error == Some(ParseErrorText)
      && !r.loading && !r.streams[k].open
    ensures p.Parsed? ==>
      && r.error == s.error
      && |r.messages| == |s.messages|
      && (forall i {:trigger r.messages[i]} :: 0 <= i < |s.messages| && s.messages[i].id != s.streams[k].target ==>
            r.messages[i] == s.messages[i])
      && (forall i {:trigger r.messages[i]} :: 0 <= i < |s.messages| && s.messages[i].id == s.streams[k].target ==>
            r.messages[i] == Apply(s.messages[i], p.event))
      && (EndsStream(p.event) ==> !r.loading && !r.streams[k].open)
      && (!EndsStream(p.event) ==> r.loading == s.loading && r.streams[k] == s.streams[k])
  {
    match p
    case Malformed =>
      s.(error := Some(ParseErrorText), loading := false, streams := Close(s.streams, k))
    case Parsed(e) =>
      var t := s.streams[k].target;
      var s' := s.(messages := ReplaceById(s.messages, t, m => Apply(m, e)));
      if EndsStream(e) then
        s'.(streams := Close(s.streams, k), loading := false)
      else
        s'
  }

  /** The `onerror` handler of connection `k`: the conversation is kept, the
      connection error is shown, the busy flag cleared and the connection
      closed. */
  function OnTransportError(s: ChatState, k: nat): (r: ChatState)
    requires k < |s.streams|
    ensures Valid(s) ==> Valid(r)
    ensures r.messages == s.messages && r.input == s.input && r.current == s.current
    ensures r.error == Some(ConnectionErrorText) && !r.loading
    ensures |r.streams| == |s.streams| && r.streams[k] == s.streams[k].(open := false)
    ensures forall i :: 0 <= i < |s.streams| && i != k ==> r.streams[i] == s.streams[i]
  {
    s.(error := Some(ConnectionErrorText), loading := false, streams := Close(s.streams, k))
  }

  /** `clearChat`: the conversation and the banner are emptied and the
      current connection is closed and forgotten. The busy flag is left as
      it was. */
  function Clear(s: ChatState): (r: ChatState)
    requires Valid(s)
    ensures Valid(r)
    ensures r.messages == [] && r.error == None && r.current == None
    ensures r.loading == s.loading && r.input == s.input
    ensures |r.streams| == |s.streams|
    ensures forall i :: 0 <= i < |s.streams| ==>
      r.streams[i] == s.streams[i].(open := s.streams[i].open && s.current != Some(i))
  {
    var streams := if s.current.Some? then Close(s.streams, s.current.value) else s.streams;
    s.(messages := [], error := None, streams := streams, current := None)
  }

  /** The clean-up on unmount: the current connection is closed and
      nothing else changes. */
  function Unmount(s: ChatState): (r: ChatState)
    requires Valid(s)
    ensures Valid(r)
    ensures r.(streams := s.streams) == s
    ensures |r.streams| == |s.streams|
    ensures forall i :: 0 <= i < |s.streams| ==>
      r.streams[i] == s.streams[i].(open := s.streams[i].open && s.current != Some(i))
  {
    if s.current.Some? then s.(streams := Close(s.streams, s.current.value)) else s
  }

  /** What can happen to the component. */
  datatype Action =
    | Type(text: string)
    | Send(userClock: int, aiClock: int)
    | Deliver(stream: nat, payload: Payload)
    | TransportError(stream: nat)
    | ClearChat
    | Teardown

  /** One action. A connection that does not exist or has been closed
      delivers nothing. */
  function Step(s: ChatState, endpoint: string, a: Action): (r: ChatState)
    requires Valid(s)
    ensures Valid(r)
    ensures a.Type? ==> r == s.(input := a.text)
    ensures a.Send? ==> r == Submit(s, endpoint, a.userClock, a.aiClock)
    ensures (a.Deliver? || a.TransportError?) && !Live(s, a.stream) ==> r == s
    ensures a.Deliver? && Live(s, a.stream) ==> r == OnMessage(s, a.stream, a.payload)
    ensures a.TransportError? && Live(s, a.stream) ==> r == OnTransportError(s, a.stream)
    ensures a.ClearChat? ==> r == Clear(s)
    ensures a.Teardown? ==> r == Unmount(s)
  {
    match a
    case Type(text) => s.(input := text)
    case Send(u, c) => Submit(s, endpoint, u, c)
    case Deliver(k, p) => Receive(s, k, p)
    case TransportError(k) => if Live(s, k) then OnTransportError(s, k) else s
    case ClearChat => Clear(s)
    case Teardown => Unmount(s)
  }

  /** Connection `k` receiving one payload: a connection that does not exist
      or has been closed delivers nothing. */
  function Receive(s: ChatState, k: nat, p: Payload): (r: ChatState)
    requires Valid(s)
    ensures Valid(r)
    ensures !Live(s, k) ==> r == s
  {
    if Live(s, k) then OnMessage(s, k, p) else s
  }

  /** `Step` as the rendered page allows it: while busy, the text area and
      the send button are disabled, so typing and sending are ignored. */
  function Dispatch(s: ChatState, endpoint: string, a: Action): (r: ChatState)
    requires Valid(s)
    ensures Valid(r)
    ensures s.loading && (a.Type? || a.Send?) ==> r == s
  {
    if s.loading && (a.Type? || a.Send?) then s else Step(s, endpoint, a)
  }

  function DispatchAll(s: ChatState, endpoint: string, acts: seq<Action>): (r: ChatState)
    requires Valid(s)
    ensures Valid(r)
    decreases |acts|
  {
    if acts == [] then s else DispatchAll(Dispatch(s, endpoint, acts[0]), endpoint, acts[1..])
  }

  // ----- a stream, event by event -----

  /** Connection `k` delivering the parsed events `es` one after another. */
  function DeliverAll(s: ChatState, k: nat, es: seq<StreamEvent>): (r: ChatState)
    requires Valid(s)
    ensures Valid(r)
    decreases |es|
  {
    if es == [] then s
    else DeliverAll(Receive(s, k, Parsed(es[0])), k, es[1..])
  }

  /** A closed connection changes nothing, whatever it is sent. */
  lemma {:induction false} ClosedStreamIsInert(s: ChatState, k: nat, es: seq<StreamEvent>)
    requires Valid(s) && !Live(s, k)
    ensures DeliverAll(s, k, es) == s
    decreases |es|
  {
    if es != [] {
      ClosedStreamIsInert(s, k, es[1..]);
    }
  }

  /** The fields an event overwrites hold that event's values, defaulted. */
  predicate Reflects(m: Turn, e: StreamEvent) {
    && m.finished == Value(EndsStream(e))
    && m.errorMessage == MessageOrNull(e.errorMessage)
    && m.usage == UsageOrNull(e.usage)
  }

  /** One delivered event keeps what the stream lemmas below rely on: the
      connection stays, pointing at the same turn, which keeps its place. */
  lemma DeliverOneKeepsTarget(s: ChatState, k: nat, e: StreamEvent, j: nat)
    requires Valid(s) && Live(s, k)
    requires j < |s.messages| && s.messages[j].id == s.streams[k].target
    ensures var s1 := Receive(s, k, Parsed(e));
      && Valid(s1)
      && |s1.streams| == |s.streams| && s1.streams[k].target == s.streams[k].target
      && |s1.messages| == |s.messages| && s1.messages[j] == Apply(s.messages[j], e)
      && s1.messages[j].id == s1.streams[k].target
      && (Live(s1, k) <==> !EndsStream(e))
      && (EndsStream(e) ==> !s1.loading)
  {
  }

  /** What a stream makes of the turn it targets: the events are applied in
      order, and the one that ends the stream is the last applied. */
  function TurnAfter(m: Turn, es: seq<StreamEvent>): (r: Turn)
    ensures r.id == m.id && r.isUser == m.isUser && r.timestamp == m.timestamp
    decreases |es|
  {
    if es == [] then m
    else if EndsStream(es[0]) then Apply(m, es[0])
    else TurnAfter(Apply(m, es[0]), es[1..])
  }

  /** The state-level stream does to the target turn what `TurnAfter` says. */
  lemma {:induction false} StreamFollowsTurnAfter(s: ChatState, k: nat,
                                                  es: seq<StreamEvent>, j: nat)
    requires Valid(s) && Live(s, k)
    requires j < |s.messages| && s.messages[j].id == s.streams[k].target
    ensures var r := DeliverAll(s, k, es);
      j < |r.messages| && r.messages[j] == TurnAfter(s.messages[j], es)
    decreases |es|
  {
    if es != [] {
      var s1 := Receive(s, k, Parsed(es[0]));
      DeliverOneKeepsTarget(s, k, es[0], j);
      if EndsStream(es[0]) {
        ClosedStreamIsInert(s1, k, es[1..]);
      } else {
        StreamFollowsTurnAfter(s1, k, es[1..], j);
      }
    }
  }

  /** The turn's content grows by the fragments of the events up to the one
      that ends the stream. */
  lemma {:induction false} TurnAfterContent(m: Turn, es: seq<StreamEvent>)
    ensures TurnAfter(m, es).content == m.content + Fragments(UpToEnd(es))
    decreases |es|
  {
    if es != [] {
      FragmentsUpToEndStep(es);
      if !EndsStream(es[0]) {
        TurnAfterContent(Apply(m, es[0]), es[1..]);
      }
    }
  }

  /** The turn's overwritten fields are those of the last event applied. */
  lemma {:induction false} TurnAfterReflects(m: Turn, es: seq<StreamEvent>)
    ensures var d := UpToEnd(es); var r := TurnAfter(m, es);
      && (d == [] ==> r == m)
      && (d != [] ==> Reflects(r, d[|d| - 1]))
    decreases |es|
  {
    if es != [] && !EndsStream(es[0]) {
      TurnAfterReflects(Apply(m, es[0]), es[1..]);
      var d' := UpToEnd(es[1..]);
      assert UpToEnd(es) == [es[0]] + d';
      if d' != [] {
        assert ([es[0]] + d')[|d'|] == d'[|d'| - 1];
      }
    }
  }

  /** Streaming into an assistant turn: after connection `k` is sent `es`,
      the turn at `j` holds its old content followed by the fragments of the
      events delivered up to the one that ends the stream; later events
      change nothing. */
  lemma StreamAppendsFragments(s: ChatState, k: nat,
                                es: seq<StreamEvent>, j: nat)
    requires Valid(s) && Live(s, k)
    requires j < |s.messages| && s.messages[j].id == s.streams[k].target
    ensures var r := DeliverAll(s, k, es);
      && j < |r.messages|
      && r.messages[j].content == s.messages[j].content + Fragments(UpToEnd(es))
  {
    StreamFollowsTurnAfter(s, k, es, j);
    TurnAfterContent(s.messages[j], es);
  }

  /** Streaming touches only the turns carrying the connection's target id:
      the log keeps its length, every other turn and the banner stay. */
  lemma {:induction false} StreamTouchesOnlyTarget(s: ChatState, k: nat,
                                                   es: seq<StreamEvent>)
    requires Valid(s) && Live(s, k)
    ensures var r := DeliverAll(s, k, es);
      && |r.messages| == |s.messages|
      && (forall i :: 0 <= i < |s.messages| && s.messages[i].id != s.streams[k].target ==>
            r.messages[i] == s.messages[i])
      && r.error == s.error
    decreases |es|
  {
    if es != [] {
      var s1 := Receive(s, k, Parsed(es[0]));
      assert s1 == OnMessage(s, k, Parsed(es[0]));
      if EndsStream(es[0]) {
        ClosedStreamIsInert(s1, k, es[1..]);
      } else {
        StreamTouchesOnlyTarget(s1, k, es[1..]);
      }
    }
  }

  /** The turn's `finished`, `errorMessage` and `usage` are those of the last
      delivered event, defaulted; with no event delivered the turn is as it
      was. Its id, author and time never change. */
  lemma StreamReflectsLastEvent(s: ChatState, k: nat,
                                es: seq<StreamEvent>, j: nat)
    requires Valid(s) && Live(s, k)
    requires j < |s.messages| && s.messages[j].id == s.streams[k].target
    ensures var r := DeliverAll(s, k, es);
      var d := UpToEnd(es);
      && j < |r.messages|
      && r.messages[j].id == s.messages[j].id
      && r.messages[j].isUser == s.messages[j].isUser
      && r.messages[j].timestamp == s.messages[j].timestamp
      && (d == [] ==> r.messages[j] == s.messages[j])
      && (d != [] ==> Reflects(r.messages[j], d[|d| - 1]))
  {
    StreamFollowsTurnAfter(s, k, es, j);
    TurnAfterReflects(s.messages[j], es);
  }

  /** The connection is still open after `es` exactly when none of them
      ended the stream: it closes on the first `finished` event. */
  lemma {:induction false} StreamClosesOnFinish(s: ChatState, k: nat,
                                                es: seq<StreamEvent>, j: nat)
    requires Valid(s) && Live(s, k)
    requires j < |s.messages| && s.messages[j].id == s.streams[k].target
    ensures var r := DeliverAll(s, k, es);
      && (Live(r, k) <==> forall i :: 0 <= i < |es| ==> !EndsStream(es[i]))
      && (!Live(r, k) ==> !r.loading)
    decreases |es|
  {
    if es != [] {
      var s1 := Receive(s, k, Parsed(es[0]));
      DeliverOneKeepsTarget(s, k, es[0], j);
      if EndsStream(es[0]) {
        ClosedStreamIsInert(s1, k, es[1..]);
      } else {
        StreamClosesOnFinish(s1, k, es[1..], j);
        assert forall i :: 1 <= i < |es| ==> es[i] == es[1..][i - 1];
      }
    }
  }

  /** What a non-blank submission sets up for the stream lemmas: connection
      `|s.streams|` is open, aimed at the new assistant turn, which is the
      only turn carrying its id. */
  lemma SubmitOpensStream(s: ChatState, endpoint: string, userClock: int, aiClock: int)
    requires Valid(s) && !Blank(s.input)
    requires Fresh(aiClock + 1, s.messages) && userClock != aiClock + 1
    ensures var s1 := Submit(s, endpoint, userClock, aiClock);
      && Valid(s1) && Live(s1, |s.streams|) && s1.loading
      && s1.streams[|s.streams|].target == aiClock + 1
      && |s1.messages| == |s.messages| + 2
      && s1.messages[|s.messages| + 1] == PendingTurn(aiClock + 1, aiClock)
      && Fresh(aiClock + 1, s1.messages[..|s.messages| + 1])
  {
    var s1 := Submit(s, endpoint, userClock, aiClock);
    var user := UserTurn(userClock, s.input, userClock);
    assert s1.messages == s.messages + [user, PendingTurn(aiClock + 1, aiClock)];
    assert s1.messages[..|s.messages| + 1] == s.messages + [user];
  }

  /** A question streamed to its end: after a non-blank submission whose
      assistant id is fresh, the new assistant turn holds exactly the
      fragments of the events delivered, in order, and every earlier turn
      and the user turn are as they were. */
  lemma SubmitThenStream(s: ChatState, endpoint: string, userClock: int, aiClock: int,
                         es: seq<StreamEvent>)
    requires Valid(s) && !Blank(s.input)
    requires Fresh(aiClock + 1, s.messages) && userClock != aiClock + 1
    ensures var s1 := Submit(s, endpoint, userClock, aiClock);
      var r := DeliverAll(s1, |s.streams|, es);
      && |r.messages| == |s.messages| + 2
      && r.messages[..|s.messages| + 1] == s1.messages[..|s.messages| + 1]
      && r.messages[|s.messages| + 1].content == Fragments(UpToEnd(es))
      && !r.messages[|s.messages| + 1].isUser
  {
    var s1 := Submit(s, endpoint, userClock, aiClock);
    var k := |s.streams|;
    var j := |s.messages| + 1;
    SubmitOpensStream(s, endpoint, userClock, aiClock);
    StreamAppendsFragments(s1, k, es, j);
    StreamReflectsLastEvent(s1, k, es, j);
    StreamTouchesOnlyTarget(s1, k, es);
    var r := DeliverAll(s1, k, es);
    forall i | 0 <= i < j
      ensures r.messages[i] == s1.messages[i]
    {
      assert s1.messages[..j][i] == s1.messages[i];
    }
  }

  /** "What is X?" answered in two events: `"X is"`, then `" a thing."`
      carrying `finished` and a usage of 5 input, 4 output and 9 total
      tokens. The answer reads "X is a thing.", is finished with that usage
      and no error, and the page is idle again with the connection closed. */
  lemma TwoEventAnswer(s: ChatState, endpoint: string, userClock: int, aiClock: int)
    requires Valid(s) && s.input == "What is X?"
    requires Fresh(aiClock + 1, s.messages) && userClock != aiClock + 1
    ensures var s1 := Submit(s, endpoint, userClock, aiClock);
      var e1 := StreamEvent(Value("X is"), Undefined, Undefined, Undefined);
      var e2 := StreamEvent(Value(" a thing."), Value(true), Undefined, Value(Usage(5, 4, 9)));
      var r := DeliverAll(s1, |s.streams|, [e1, e2]);
      && |r.messages| == |s.messages| + 2
      && r.messages[|s.messages| + 1].content == "X is a thing."
      && r.messages[|s.messages| + 1].finished == Value(true)
      && r.messages[|s.messages| + 1].errorMessage == Null
      && r.messages[|s.messages| + 1].usage == Value(Usage(5, 4, 9))
      && !r.loading && !Live(r, |s.streams|)
  {
    var e1 := StreamEvent(Value("X is"), Undefined, Undefined, Undefined);
    var e2 := StreamEvent(Value(" a thing."), Value(true), Undefined, Value(Usage(5, 4, 9)));
    assert !IsJsWhitespace(s.input[0]);
    var k := |s.streams|;
    var j := |s.messages| + 1;
    var s1 := Submit(s, endpoint, userClock, aiClock);
    SubmitOpensStream(s, endpoint, userClock, aiClock);
    StreamFollowsTurnAfter(s1, k, [e1, e2], j);
    StreamTouchesOnlyTarget(s1, k, [e1, e2]);
    assert EndsStream([e1, e2][1]);
    StreamClosesOnFinish(s1, k, [e1, e2], j);
    TwoEventTurn(s1.messages[j], e1, e2);
  }

  /** The assistant turn of that answer, event by event. */
  lemma TwoEventTurn(m: Turn, e1: StreamEvent, e2: StreamEvent)
    requires m.content == ""
    requires e1 == StreamEvent(Value("X is"), Undefined, Undefined, Undefined)
    requires e2 == StreamEvent(Value(" a thing."), Value(true), Undefined, Value(Usage(5, 4, 9)))
    ensures var t := TurnAfter(m, [e1, e2]);
      && t.content == "X is a thing."
      && t.finished == Value(true) && t.errorMessage == Null && t.usage == Value(Usage(5, 4, 9))
  {
    assert [e1, e2][1..] == [e2];
    assert TurnAfter(m, [e1, e2]) == Apply(Apply(m, e1), e2);
    assert Apply(Apply(m, e1), e2).content == "" + "X is" + " a thing.";
  }

  /** Absent fields reset rather than keep: a `usage` set by one event is
      wiped by a later event that does not carry one. */
  lemma LaterEventResetsUsage(m: Turn, e1: StreamEvent, e2: StreamEvent)
    requires e1.usage.Value? && !e2.usage.Value?
    ensures Apply(m, e1).usage == e1.usage
    ensures Apply(Apply(m, e1), e2).usage == Null
  {
  }

  /** An error message does not end a stream: only `finished` closes the
      connection, and the next event without a message clears it again. */
  lemma ErrorMessageIsNotTerminal(s: ChatState, k: nat, msg: string)
    requires Valid(s) && Live(s, k) && msg != ""
    requires exists j :: 0 <= j < |s.messages| && s.messages[j].id == s.streams[k].target
    ensures var e1 := StreamEvent(Undefined, Undefined, Value(msg), Undefined);
      var e2 := StreamEvent(Value("more"), Undefined, Undefined, Undefined);
      var s1 := Receive(s, k, Parsed(e1));
      var s2 := Receive(s1, k, Parsed(e2));
      && Live(s1, k)
      && (forall j :: 0 <= j < |s.messages| && s.messages[j].id == s.streams[k].target ==>
            s1.messages[j].errorMessage == Value(msg) && s2.messages[j].errorMessage == Null)
  {
  }

  // ----- the busy flag and the connections -----

  /** What the page keeps true: the ref points at an existing connection,
      only the current connection can be open, and an open connection means
      the component is busy. */
  predicate Inv(s: ChatState) {
    && Valid(s)
    && forall i :: 0 <= i < |s.streams| && s.streams[i].open ==>
         s.current == Some(i) && s.loading
  }

  lemma InitInv()
    ensures Inv(Init())
  {
  }

  /** Every action the page allows keeps `Inv`: there is never more than one
      open connection, and it only runs while the page is busy. */
  lemma DispatchKeepsInv(s: ChatState, endpoint: string, a: Action)
    requires Inv(s)
    ensures Inv(Dispatch(s, endpoint, a))
  {
    match a {
      case Send(u, c) =>
        if !s.loading {
          SubmitKeepsInv(s, endpoint, u, c);
        }
      case Deliver(k, p) =>
        if Live(s, k) {
          CloseKeepsInv(s, k);
          assert Dispatch(s, endpoint, a) == OnMessage(s, k, p);
        }
      case TransportError(k) =>
        if Live(s, k) {
          CloseKeepsInv(s, k);
          assert Dispatch(s, endpoint, a) == OnTransportError(s, k);
        }
      case _ =>
    }
  }

  /** A submission from an idle page opens the only open connection. */
  lemma SubmitKeepsInv(s: ChatState, endpoint: string, u: int, c: int)
    requires Inv(s) && !s.loading
    ensures Inv(Submit(s, endpoint, u, c))
  {
    if !Blank(s.input) {
      var r := Submit(s, endpoint, u, c);
      var n := |s.streams|;
      assert r.streams[..n] == s.streams && r.streams[n].open;
      assert r.current == Some(n) && r.loading;
      forall i | 0 <= i < n
        ensures !r.streams[i].open
      {
        assert r.streams[i] == s.streams[i];
      }
    }
  }

  /** A handler running on the open connection is on the current one. */
  lemma CloseKeepsInv(s: ChatState, k: nat)
    requires Inv(s) && Live(s, k)
    ensures s.current == Some(k) && s.loading
    ensures forall i :: 0 <= i < |s.streams| && i != k ==> !s.streams[i].open
  {
  }

  lemma {:induction false} DispatchAllKeepsInv(s: ChatState, endpoint: string, acts: seq<Action>)
    requires Inv(s)
    ensures Inv(DispatchAll(s, endpoint, acts))
    decreases |acts|
  {
    if acts != [] {
      DispatchKeepsInv(s, endpoint, acts[0]);
      DispatchAllKeepsInv(Dispatch(s, endpoint, acts[0]), endpoint, acts[1..]);
    }
  }

  /** Clearing during a stream freezes the page: `clearChat` closes the only
      open connection but leaves the busy flag set, so nothing can clear it
      again; the text area and send button stay disabled and every later
      action leaves the state as it is. */
  lemma ClearDuringStreamFreezes(s: ChatState, endpoint: string, acts: seq<Action>)
    requires Inv(s) && s.loading
    ensures var c := Dispatch(s, endpoint, ClearChat);
      && c.loading
      && DispatchAll(c, endpoint, acts) == c
  {
    var c := Dispatch(s, endpoint, ClearChat);
    assert forall i :: 0 <= i < |c.streams| ==> !c.streams[i].open;
    FrozenStaysFrozen(c, endpoint, acts);
  }

  /** A busy state with no open connection, no connection ref and an empty
      log and banner is left as it is by every action. */
  lemma {:induction false} FrozenStaysFrozen(c: ChatState, endpoint: string, acts: seq<Action>)
    requires Valid(c) && c.loading && c.current == None && c.messages == [] && c.error == None
    requires forall i :: 0 <= i < |c.streams| ==> !c.streams[i].open
    ensures DispatchAll(c, endpoint, acts) == c
    decreases |acts|
  {
    if acts != [] {
      assert Dispatch(c, endpoint, acts[0]) == c;
      FrozenStaysFrozen(c, endpoint, acts[1..]);
    }
  }

  /** `clearChat` as evidently intended: it also clears the busy flag. */
  function ClearReleasingBusy(s: ChatState): (r: ChatState)
    requires Valid(s)
    ensures Valid(r) && !r.loading
    ensures r.messages == [] && r.error == None && r.current == None
    ensures Inv(s) ==> Inv(r)
  {
    Clear(s).(loading := false)
  }

  /** With the corrected clear, a question typed after clearing mid-stream
      is sent: two turns appear and a new connection opens. */
  lemma ClearReleasingBusyRecovers(s: ChatState, endpoint: string, q: string, u: int, a: int)
    requires Inv(s) && !Blank(q)
    ensures var c := ClearReleasingBusy(s);
      var r := Dispatch(Dispatch(c, endpoint, Type(q)), endpoint, Send(u, a));
      && Inv(r) && r.loading && |r.messages| == 2 && r.messages[0].content == q
      && Live(r, |s.streams|)
  {
    var c := ClearReleasingBusy(s);
    var t := Dispatch(c, endpoint, Type(q));
    assert Inv(t);
    DispatchKeepsInv(t, endpoint, Send(u, a));
  }
}

=== FILE: rag_chat_legacy.dfy ===
/** The older chat component `RagChat.js`. It differs from `RagChat.tsx`
    in four ways: the stream address is fixed, event fields are copied raw
    (absent stays absent), a malformed payload is not caught, and clearing
    closes the connection without forgetting it. */
module RagChatLegacy {
  import opened Optional
  import opened Text
  import Uri
  import opened ChatTypes
  import RagChat

  const StreamEndpoint: string := "http://localhost:8080/api/chat/rag/stream"

  /** The URL the stream is opened on. */
  function StreamUrl(question: string): string {
    StreamEndpoint + "?question=" + Uri.Encode(question) + "&topK=3"
  }

  /** The fixed address is the typed component's address with its endpoint
      set to the local server. */
  lemma StreamUrlIsLocalEndpoint(question: string)
    ensures StreamUrl(question) == RagChat.StreamUrl(StreamEndpoint, question)
    ensures StreamUrl(question)[..|StreamEndpoint|] == StreamEndpoint
  {
  }

  /** `sendMessage`: a blank input (one that trims to empty, see
      `Text.TrimEmptyIffBlank`) does nothing; otherwise a user turn and an
      empty, unfinished assistant turn are appended, the input is cleared and
      a connection opens on the fixed address. */
  function Submit(s: ChatState, userClock: int, aiClock: int): (r: ChatState)
    ensures Valid(s) ==> Valid(r)
    ensures Blank(s.input) ==> r == s
    ensures !Blank(s.input) ==>
      && r.messages == s.messages + [UserTurn(userClock, s.input, userClock), PendingTurn(aiClock + 1, aiClock)]
      && r.input == "" && r.loading && r.error == None
      && r.streams == s.streams + [Stream(StreamUrl(s.input), aiClock + 1, true)]
      && r.current == Some(|s.streams|)
  {
    if Blank(s.input) then s
    else
      var user := UserTurn(userClock, s.input, userClock);
      var assistant := PendingTurn(aiClock + 1, aiClock);
      s.(loading := true, error := None,
         messages := s.messages + [user, assistant],
         input := "",
         streams := s.streams + [Stream(StreamUrl(s.input), aiClock + 1, true)],
         current := Some(|s.streams|))
  }

  /** Submitting behaves as in the typed component aimed at the local server. */
  lemma SubmitMatchesTyped(s: ChatState, userClock: int, aiClock: int)
    ensures Submit(s, userClock, aiClock) == RagChat.Submit(s, StreamEndpoint, userClock, aiClock)
  {
    StreamUrlIsLocalEndpoint(s.input);
  }

  /** The update one event makes: the fragment is appended and the other
      three fields take the event's values as they are, absent included. */
  function Apply(m: Turn, e: StreamEvent): (r: Turn)
    ensures r.content == m.content + Fragment(e)
    ensures r.id == m.id && r.isUser == m.isUser && r.timestamp == m.timestamp
    ensures r.finished == e.finished && r.errorMessage == e.errorMessage && r.usage == e.usage
  {
    m.(content := m.content + Fragment(e),
       finished := e.finished, errorMessage := e.errorMessage, usage := e.usage)
  }

  /** The typed component's defaulting applied to a raw turn. */
  function Normalize(m: Turn): (r: Turn)
    ensures r.content == m.content && r.id == m.id
  {
    m.(finished := Value(Truthy(m.finished)),
       errorMessage := RagChat.MessageOrNull(m.errorMessage),
       usage := RagChat.UsageOrNull(m.usage))
  }

  /** The two components build the same turn from an event, up to the typed
      one's defaults: the content agrees exactly. */
  lemma ApplyAgreesUpToDefaults(m: Turn, e: StreamEvent)
    ensures RagChat.Apply(m, e) == Normalize(Apply(m, e))
  {
  }

  /** `onmessage` of connection `k`. A malformed payload throws before any
      update, so the state is left as it was and the connection stays open.
      A parsed event updates the turns carrying the target id, and one that
      ends the stream closes it and clears the busy flag. */
  function OnMessage(s: ChatState, k: nat, p: Payload): (r: ChatState)
    requires k < |s.streams|
    ensures Valid(s) ==> Valid(r)
    ensures p.Malformed? ==> r == s
    ensures |r.streams| == |s.streams| && r.current == s.current && r.input == s.input
    ensures forall i {:trigger r.streams[i]} :: 0 <= i < |s.streams| && i != k ==> r.streams[i] == s.streams[i]
    ensures r.streams[k].url == s.streams[k].url && r.streams[k].target == s.streams[k].target
    ensures p.Parsed? ==>
      && r.error == s.error
      && |r.messages| == |s.messages|
      && (forall i {:trigger r.messages[i]} :: 0 <= i < |s.messages| && s.messages[i].id != s.streams[k].target ==>
            r.messages[i] == s.messages[i])
      && (forall i {:trigger r.messages[i]} :: 0 <= i < |s.messages| && s.messages[i].id == s.streams[k].target ==>
            r.messages[i] == Apply(s.messages[i], p.event))
      && (EndsStream(p.event) ==> !r.loading && !r.streams[k].open)
      && (!EndsStream(p.event) ==> r.loading == s.loading && r.streams[k] == s.streams[k])
  {
    match p
    case Malformed => s
    case Parsed(e) =>
      var t := s.streams[k].target;
      var s' := s.(messages := ReplaceById(s.messages, t, m => Apply(m, e)));
      if EndsStream(e) then
        s'.(streams := Close(s.streams, k), loading := false)
      else
        s'
  }

  /** `clearChat`: the conversation and the banner are emptied and the
      current connection closed, but the ref keeps pointing at it and the
      busy flag is left as it was. */
  function Clear(s: ChatState): (r: ChatState)
    requires Valid(s)
    ensures Valid(r)
    ensures r.messages == [] && r.error == None && r.current == s.current
    ensures r.loading == s.loading && r.input == s.input
    ensures |r.streams| == |s.streams|
    ensures forall i :: 0 <= i < |s.streams| ==>
      r.streams[i] == s.streams[i].(open := s.streams[i].open && s.current != Some(i))
  {
    var streams := if s.current.Some? then Close(s.streams, s.current.value) else s.streams;
    s.(messages := [], error := None, streams := streams)
  }

  /** One action; the transport error and unmount handlers are those of the
      typed component. */
  function Step(s: ChatState, a: RagChat.Action): (r: ChatState)
    requires Valid(s)
    ensures Valid(r)
    ensures a.Type? ==> r == s.(input := a.text)
    ensures a.Send? ==> r == Submit(s, a.userClock, a.aiClock)
    ensures (a.Deliver? || a.TransportError?) && !Live(s, a.stream) ==> r == s
    ensures a.Deliver? && Live(s, a.stream) ==> r == OnMessage(s, a.stream, a.payload)
    ensures a.TransportError? && Live(s, a.stream) ==> r == RagChat.OnTransportError(s, a.stream)
    ensures a.ClearChat? ==> r == Clear(s)
    ensures a.Teardown? ==> r == RagChat.Unmount(s)
  {
    match a
    case Type(text) => s.(input := text)
    case Send(u, c) => Submit(s, u, c)
    case Deliver(k, p) => Receive(s, k, p)
    case TransportError(k) => if Live(s, k) then RagChat.OnTransportError(s, k) else s
    case ClearChat => Clear(s)
    case Teardown => RagChat.Unmount(s)
  }

  /** Connection `k` receiving one payload; a closed connection delivers
      nothing. */
  function Receive(s: ChatState, k: nat, p: Payload): (r: ChatState)
    requires Valid(s)
    ensures Valid(r)
    ensures !Live(s, k) ==> r == s
  {
    if Live(s, k) then OnMessage(s, k, p) else s
  }

  /** Connection `k` receiving the payloads `ps` one after another. */
  function ReceiveAll(s: ChatState, k: nat, ps: seq<Payload>): (r: ChatState)
    requires Valid(s)
    ensures Valid(r)
    decreases |ps|
  {
    if ps == [] then s else ReceiveAll(Receive(s, k, ps[0]), k, ps[1..])
  }

  /** The events among `ps` that parse. */
  function ParsedEvents(ps: seq<Payload>): seq<StreamEvent> {
    if ps == [] then []
    else if ps[0].Parsed? then [ps[0].event] + ParsedEvents(ps[1..])
    else ParsedEvents(ps[1..])
  }

  lemma {:induction false} ClosedStreamIsInert(s: ChatState, k: nat, ps: seq<Payload>)
    requires Valid(s) && !Live(s, k)
    ensures ReceiveAll(s, k, ps) == s
    decreases |ps|
  {
    if ps != [] {
      ClosedStreamIsInert(s, k, ps[1..]);
    }
  }

  /** One payload keeps the connection aimed at turn `j`; a parsed event
      updates that turn and a malformed one leaves everything as it was. */
  lemma ReceiveOneKeepsTarget(s: ChatState, k: nat, p: Payload, j: nat)
    requires Valid(s) && Live(s, k)
    requires j < |s.messages| && s.messages[j].id == s.streams[k].target
    ensures var s1 := Receive(s, k, p);
      && Valid(s1)
      && |s1.streams| == |s.streams| && s1.streams[k].target == s.streams[k].target
      && j < |s1.messages| && s1.messages[j].id == s1.streams[k].target
      && (p.Malformed? ==> s1 == s)
      && (p.Parsed? ==> s1.messages[j] == Apply(s.messages[j], p.event)
                        && (Live(s1, k) <==> !EndsStream(p.event)))
  {
  }

  /** What the first payload adds to the streamed text: nothing when it is
      malformed, else its event's fragment, followed by the rest unless that
      event ends the stream. */
  lemma ParsedFragmentsStep(ps: seq<Payload>)
    requires ps != []
    ensures var rest := Fragments(UpToEnd(ParsedEvents(ps[1..])));
      Fragments(UpToEnd(ParsedEvents(ps))) ==
        if ps[0].Malformed? then rest
        else Fragment(ps[0].event) + (if EndsStream(ps[0].event) then "" else rest)
  {
    if ps[0].Parsed? {
      var e := ps[0].event;
      var rest := ParsedEvents(ps[1..]);
      assert ParsedEvents(ps) == [e] + rest;
      FragmentsUpToEndStep([e] + rest);
      assert ([e] + rest)[1..] == rest;
    }
  }

  /** Streaming into an assistant turn: malformed payloads are skipped
      without ending the stream, and the turn's content grows by the
      fragments of the parsed events up to the one that ends the stream,
      exactly as in the typed component. */
  lemma {:induction false} StreamAppendsFragments(s: ChatState, k: nat, ps: seq<Payload>, j: nat)
    requires Valid(s) && Live(s, k)
    requires j < |s.messages| && s.messages[j].id == s.streams[k].target
    ensures var r := ReceiveAll(s, k, ps);
      && j < |r.messages|
      && r.messages[j].content == s.messages[j].content + Fragments(UpToEnd(ParsedEvents(ps)))
    decreases |ps|
  {
    if ps != [] {
      var s1 := Receive(s, k, ps[0]);
      assert ReceiveAll(s, k, ps) == ReceiveAll(s1, k, ps[1..]);
      ReceiveOneKeepsTarget(s, k, ps[0], j);
      ParsedFragmentsStep(ps);
      if ps[0].Malformed? {
        StreamAppendsFragments(s1, k, ps[1..], j);
      } else if EndsStream(ps[0].event) {
        assert !Live(s1, k);
        ClosedStreamIsInert(s1, k, ps[1..]);
      } else {
        assert Live(s1, k);
        StreamAppendsFragments(s1, k, ps[1..], j);
      }
    }
  }

  /** With well-formed events only, both components stream the same text
      into the assistant turn. */
  lemma ContentAgreesWithTyped(s: ChatState, k: nat, es: seq<StreamEvent>, j: nat)
    requires Valid(s) && Live(s, k)
    requires j < |s.messages| && s.messages[j].id == s.streams[k].target
    ensures var ps := seq(|es|, i requires 0 <= i < |es| => Parsed(es[i]));
      var r := ReceiveAll(s, k, ps);
      var t := RagChat.DeliverAll(s, k, es);
      && j < |r.messages| && j < |t.messages|
      && r.messages[j].content == t.messages[j].content
  {
    var ps := seq(|es|, i requires 0 <= i < |es| => Parsed(es[i]));
    ParsedEventsOfParsed(es);
    StreamAppendsFragments(s, k, ps, j);
    RagChat.StreamAppendsFragments(s, k, es, j);
  }

  lemma {:induction false} ParsedEventsOfParsed(es: seq<StreamEvent>)
    ensures ParsedEvents(seq(|es|, i requires 0 <= i < |es| => Parsed(es[i]))) == es
  {
    if es != [] {
      var ps := seq(|es|, i requires 0 <= i < |es| => Parsed(es[i]));
      assert ps[1..] == seq(|es[1..]|, i requires 0 <= i < |es[1..]| => Parsed(es[1..][i]));
      ParsedEventsOfParsed(es[1..]);
    }
  }

  /** An event without `finished` leaves the raw field absent, where the
      typed component would store `false`. */
  lemma AbsentFieldsStayAbsent(m: Turn, e: StreamEvent)
    requires e.finished == Undefined && e.usage == Undefined
    ensures Apply(m, e).finished == Undefined && Apply(m, e).usage == Undefined
    ensures RagChat.Apply(m, e).finished == Value(false) && RagChat.Apply(m, e).usage == Null
  {
  }

  // ----- the busy flag -----

  /** `Step` as the rendered page allows it: while busy, the text area and
      the send button are disabled, so typing and sending are ignored. */
  function Dispatch(s: ChatState, a: RagChat.Action): (r: ChatState)
    requires Valid(s)
    ensures Valid(r)
    ensures s.loading && (a.Type? || a.Send?) ==> r == s
  {
    if s.loading && (a.Type? || a.Send?) then s else Step(s, a)
  }

  function DispatchAll(s: ChatState, acts: seq<RagChat.Action>): (r: ChatState)
    requires Valid(s)
    ensures Valid(r)
    decreases |acts|
  {
    if acts == [] then s else DispatchAll(Dispatch(s, acts[0]), acts[1..])
  }

  /** Every action the page allows keeps the typed component's connection
      invariant here too: keeping the ref after clearing does not matter,
      because the connection it holds is closed. */
  lemma DispatchKeepsInv(s: ChatState, a: RagChat.Action)
    requires RagChat.Inv(s)
    ensures RagChat.Inv(Dispatch(s, a))
  {
    match a {
      case Send(u, c) =>
        if !s.loading {
          SubmitMatchesTyped(s, u, c);
          RagChat.SubmitKeepsInv(s, StreamEndpoint, u, c);
        }
      case Deliver(k, p) =>
        if Live(s, k) {
          RagChat.CloseKeepsInv(s, k);
        }
      case TransportError(k) =>
        if Live(s, k) {
          RagChat.CloseKeepsInv(s, k);
        }
      case _ =>
    }
  }

  lemma {:induction false} DispatchAllKeepsInv(s: ChatState, acts: seq<RagChat.Action>)
    requires RagChat.Inv(s)
    ensures RagChat.Inv(DispatchAll(s, acts))
    decreases |acts|
  {
    if acts != [] {
      DispatchKeepsInv(s, acts[0]);
      DispatchAllKeepsInv(Dispatch(s, acts[0]), acts[1..]);
    }
  }

  /** The freeze is reachable from a fresh page: after any session that
      leaves the page busy, clearing leaves it busy for good. */
  lemma SessionThenClearFreezes(acts: seq<RagChat.Action>, later: seq<RagChat.Action>)
    requires DispatchAll(RagChat.Init(), acts).loading
    ensures var c := Dispatch(DispatchAll(RagChat.Init(), acts), RagChat.ClearChat);
      && c.loading
      && DispatchAll(c, later) == c
  {
    RagChat.InitInv();
    DispatchAllKeepsInv(RagChat.Init(), acts);
    ClearDuringStreamFreezes(DispatchAll(RagChat.Init(), acts), later);
  }

  /** Clearing during a stream freezes this page too: the only open
      connection is closed while the busy flag stays set, so the controls
      stay disabled and every later action leaves the state as it is. */
  lemma ClearDuringStreamFreezes(s: ChatState, acts: seq<RagChat.Action>)
    requires RagChat.Inv(s) && s.loading
    ensures var c := Dispatch(s, RagChat.ClearChat);
      && c.loading
      && DispatchAll(c, acts) == c
  {
    var c := Dispatch(s, RagChat.ClearChat);
    assert forall i :: 0 <= i < |c.streams| ==> !c.streams[i].open;
    FrozenStaysFrozen(c, acts);
  }

  /** A busy state with no open connection and an empty log and banner is
      left as it is by every action the page allows, whatever the ref holds. */
  lemma {:induction false} FrozenStaysFrozen(c: ChatState, acts: seq<RagChat.Action>)
    requires Valid(c) && c.loading && c.messages == [] && c.error == None
    requires forall i :: 0 <= i < |c.streams| ==> !c.streams[i].open
    ensures DispatchAll(c, acts) == c
    decreases |acts|
  {
    if acts != [] {
      var a := acts[0];
      if a.ClearChat? || a.Teardown? {
        var r := Step(c, a);
        assert r.streams == c.streams;
      }
      assert Dispatch(c, a) == c;
      FrozenStaysFrozen(c, acts[1..]);
    }
  }
}

=== FILE: text.dfy ===
/** String helpers the components rely on: JavaScript's `String.prototype.trim`,
    ASCII `toLowerCase`, and `split` on a one-character separator. */
module Text {

  /** The characters ECMAScript's `trim` removes: WhiteSpace and LineTerminator. */
  predicate IsJsWhitespace(c: char) {
    var n := c as int;
    || n == 0x09 || n == 0x0A || n == 0x0B || n == 0x0C || n == 0x0D
    || n == 0x20 || n == 0xA0 || n == 0x1680
    || (0x2000 <= n <= 0x200A)
    || n == 0x2028 || n == 0x2029 || n == 0x202F || n == 0x205F
    || n == 0x3000 || n == 0xFEFF
  }

  /** Every character is whitespace (the empty string included). */
  predicate Blank(s: string) {
    forall i :: 0 <= i < |s| ==> IsJsWhitespace(s[i])
  }

  /** Drops leading whitespace: the result is the suffix of `s` that
      starts at the first non-whitespace character. */
  function TrimStart(s: string): (r: string)
    ensures |r| <= |s| && r == s[|s| - |r|..]
    ensures forall i :: 0 <= i < |s| - |r| ==> IsJsWhitespace(s[i])
    ensures r == [] || !IsJsWhitespace(r[0])
  {
    if |s| > 0 && IsJsWhitespace(s[0]) then
      var t := s[1..];
      var r := TrimStart(t);
      assert forall i :: 1 <= i < |s| - |r| ==> s[i] == t[i - 1];
      r
    else
      s
  }

  /** Drops trailing whitespace: the result is the prefix of `s` that
      ends at the last non-whitespace character. */
  function TrimEnd(s: string): (r: string)
    ensures |r| <= |s| && r == s[..|r|]
    ensures forall i :: |r| <= i < |s| ==> IsJsWhitespace(s[i])
    ensures r == [] || !IsJsWhitespace(r[|r| - 1])
  {
    if |s| > 0 && IsJsWhitespace(s[|s| - 1]) then
      var t := s[..|s| - 1];
      var r := TrimEnd(t);
      assert t[..|r|] == s[..|r|];
      assert forall i :: |r| <= i < |s| - 1 ==> s[i] == t[i];
      r
    else
      s
  }

  function Trim(s: string): string {
    TrimEnd(TrimStart(s))
  }

  /** `!s.trim()` holds exactly when `s` consists of whitespace only. */
  lemma TrimEmptyIffBlank(s: string)
    ensures Trim(s) == [] <==> Blank(s)
  {
    if Blank(s) {
      BlankTrimsToEmpty(s);
    }
    if Trim(s) == [] {
      TrimmedEmptyIsBlank(s);
    }
  }

  /** A blank string trims to nothing: each leading character is dropped
      in turn. */
  lemma {:induction false} BlankTrimsToEmpty(s: string)
    requires Blank(s)
    ensures Trim(s) == []
  {
    if s != [] {
      BlankTrimsToEmpty(s[1..]);
    }
  }

  /** A string that trims to nothing is blank: `TrimEnd` drops only
      whitespace, so what `TrimStart` left is empty, and `TrimStart` drops
      only whitespace. */
  lemma TrimmedEmptyIsBlank(s: string)
    requires Trim(s) == []
    ensures Blank(s)
  {
    var t := TrimStart(s);
    assert t == [];
  }

  /** ASCII-only `toLowerCase` of one character. */
  function LowerChar(c: char): (r: char)
    ensures 'A' <= c <= 'Z' ==> 'a' <= r <= 'z' && r as int == c as int + 32
    ensures !('A' <= c <= 'Z') ==> r == c
  {
    if 'A' <= c <= 'Z' then (c as int + 32) as char else c
  }

  function Lower(s: string): (r: string)
    ensures |r| == |s|
    ensures forall i :: 0 <= i < |s| ==> r[i] == LowerChar(s[i])
  {
    if s == [] then [] else [LowerChar(s[0])] + Lower(s[1..])
  }

  /** JavaScript `s.split(d)` for a one-character separator `d`: the
      maximal `d`-free pieces between separators, always at least one. */
  function Split(s: string, d: char): (r: seq<string>)
    ensures |r| >= 1
  {
    if s == [] then [""]
    else
      var rest := Split(s[1..], d);
      if s[0] == d then [""] + rest
      else [[s[0]] + rest[0]] + rest[1..]
  }

  /** `pieces.join(d)`. */
  function Join(pieces: seq<string>, d: char): string
    requires |pieces| >= 1
  {
    if |pieces| == 1 then pieces[0]
    else pieces[0] + [d] + Join(pieces[1..], d)
  }

  /** Splitting loses nothing: joining the pieces back gives the string. */
  lemma {:induction false} JoinSplit(s: string, d: char)
    ensures Join(Split(s, d), d) == s
  {
    if s != [] {
      var rest := Split(s[1..], d);
      JoinSplit(s[1..], d);
      if s[0] == d {
        assert Split(s, d)[1..] == rest;
      } else {
        var r := Split(s, d);
        if |rest| == 1 {
          assert r == [[s[0]] + rest[0]];
        } else {
          assert r[1..] == rest[1..];
          assert Join(rest, d) == rest[0] + [d] + Join(rest[1..], d);
        }
      }
    }
  }

  /** No piece of a split contains the separator. */
  lemma {:induction false} SplitPiecesAvoidSeparator(s: string, d: char)
    ensures forall i :: 0 <= i < |Split(s, d)| ==> d !in Split(s, d)[i]
  {
    if s != [] {
      SplitPiecesAvoidSeparator(s[1..], d);
    }
  }

  /** The text after the last `d` in `s`, or all of `s` when it has no `d`:
      what `s.split(d).pop()` returns. */
  function LastSegment(s: string, d: char): (r: string)
    ensures |r| <= |s| && r == s[|s| - |r|..]
    ensures d !in r
    ensures |r| < |s| ==> s[|s| - |r| - 1] == d
  {
    if s == [] || s[|s| - 1] == d then []
    else
      var r := LastSegment(s[..|s| - 1], d);
      assert s[..|s| - 1][|s| - 1 - |r|..] == s[|s| - 1 - |r|..|s| - 1];
      r + [s[|s| - 1]]
  }

  /** The last piece of a split is a separator-free suffix of `s` that is
      either all of `s` or preceded by the separator. */
  lemma {:induction false} SplitLastPieceIsSuffix(s: string, d: char)
    ensures var p := Split(s, d)[|Split(s, d)| - 1];
      && |p| <= |s| && p == s[|s| - |p|..]
      && (|p| < |s| ==> s[|s| - |p| - 1] == d)
      && (|Split(s, d)| > 1 ==> |p| < |s|)
  {
    if s != [] {
      SplitLastPieceIsSuffix(s[1..], d);
      var rest := Split(s[1..], d);
      var p := rest[|rest| - 1];
      if s[0] != d && |rest| == 1 {
        JoinSplit(s[1..], d);
        assert Split(s, d) == [[s[0]] + s[1..]];
        assert [s[0]] + s[1..] == s;
      } else {
        assert Split(s, d)[|Split(s, d)| - 1] == p;
        assert s[1..][|s| - 1 - |p|..] == s[|s| - |p|..];
      }
    }
  }

  /** A separator-free suffix that is all of `s` or follows a separator is
      the last segment: `LastSegment` is characterised by its contract. */
  lemma LastSegmentUnique(s: string, d: char, r: string)
    requires |r| <= |s| && r == s[|s| - |r|..] && d !in r
    requires |r| < |s| ==> s[|s| - |r| - 1] == d
    ensures LastSegment(s, d) == r
  {
  }

  /** `LastSegment` is indeed the last piece of `Split`: it computes
      `s.split(d).pop()`. */
  lemma LastSegmentIsLastPiece(s: string, d: char)
    ensures Split(s, d)[|Split(s, d)| - 1] == LastSegment(s, d)
  {
    SplitLastPieceIsSuffix(s, d);
    SplitPiecesAvoidSeparator(s, d);
    LastSegmentUnique(s, d, Split(s, d)[|Split(s, d)| - 1]);
  }
}

=== FILE: upload_validation.dfy ===
/** The accept/reject decision `FileUpload.tsx` makes on a chosen file:
    first its size against the configured limit in megabytes, then its
    extension against the allow-list. */
module UploadValidation {
  import opened Text

  /** The two properties of a browser `File` the check reads. */
  datatype File = File(name: string, size: nat)

  datatype Verdict = Accepted | TooLarge | UnsupportedType

  const BytesPerMB: nat := 1024 * 1024

  /** The largest accepted size in bytes; `maxMB` megabytes, exactly. */
  function SizeLimit(maxMB: nat): nat {
    maxMB * BytesPerMB
  }

  /** `'.' + name.split('.').pop().toLowerCase()`: a dot and the text after
      the last dot, lower-cased; a name without a dot is its own extension. */
  function Extension(name: string): (r: string)
    ensures 1 <= |r| <= |name| + 1 && r[0] == '.'
    ensures forall i :: 1 <= i < |r| ==> r[i] != '.' && !('A' <= r[i] <= 'Z')
  {
    var seg := LastSegment(name, '.');
    assert forall i :: 0 <= i < |seg| ==> seg[i] != '.';
    "." + Lower(seg)
  }

  /** The size check comes first: a file that is too large is refused for
      its size whatever its type; only a file within the limit is judged by
      its extension, which must be an entry of the allow-list exactly. */
  function Validate(f: File, maxMB: nat, accepted: seq<string>): (v: Verdict)
    ensures v == TooLarge <==> f.size > SizeLimit(maxMB)
    ensures v == UnsupportedType <==> f.size <= SizeLimit(maxMB) && Extension(f.name) !in accepted
    ensures v == Accepted <==> f.size <= SizeLimit(maxMB) && Extension(f.name) in accepted
  {
    if f.size > SizeLimit(maxMB) then TooLarge
    else if Extension(f.name) !in accepted then UnsupportedType
    else Accepted
  }

  /** The extension is the last piece of the name split at dots, as the
      component computes it. */
  lemma ExtensionIsLastPiece(name: string)
    ensures var pieces := Split(name, '.');
      Extension(name) == "." + Lower(pieces[|pieces| - 1])
  {
    LastSegmentIsLastPiece(name, '.');
  }

  /** A name ending in a dot and a dot-free suffix has that suffix, lower-cased,
      as its extension, whatever comes before it. */
  lemma ExtensionOfSuffix(stem: string, ext: string)
    requires '.' !in ext
    ensures Extension(stem + "." + ext) == "." + Lower(ext)
  {
    var name := stem + "." + ext;
    assert name[|name| - |ext|..] == ext;
    assert name[|name| - |ext| - 1] == '.';
    LastSegmentUnique(name, '.', ext);
  }

  /** A name with no dot yields a dot followed by the whole name, lower-cased. */
  lemma ExtensionOfDotlessName(name: string)
    requires '.' !in name
    ensures Extension(name) == "." + Lower(name)
  {
    LastSegmentUnique(name, '.', name);
  }

  /** Extensions hold no upper-case ASCII letter, so an allow-list entry that
      has one never matches: the comparison is case-insensitive only for
      lower-case entries. */
  lemma ExtensionHasNoUpperCase(name: string, entry: string)
    requires exists i :: 0 <= i < |entry| && 'A' <= entry[i] <= 'Z'
    ensures Extension(name) != entry
  {
    var e := Extension(name);
    var i :| 0 <= i < |entry| && 'A' <= entry[i] <= 'Z';
    if i == 0 {
      assert e[0] == '.';
    } else if i < |e| {
      assert e[i] != '.' && !('A' <= e[i] <= 'Z');
    } else {
      assert |e| != |entry|;
    }
  }

  /** Case does not matter for the name: upper-casing letters of the
      extension does not change the verdict. */
  lemma ExtensionIgnoresCase(stem: string, ext: string, ext': string)
    requires '.' !in ext && |ext| == |ext'|
    requires forall i :: 0 <= i < |ext| ==> LowerChar(ext[i]) == LowerChar(ext'[i])
    ensures Extension(stem + "." + ext) == Extension(stem + "." + ext')
  {
    assert '.' !in ext' by {
      forall i | 0 <= i < |ext'|
        ensures ext'[i] != '.'
      {
        assert LowerChar(ext[i]) == LowerChar(ext'[i]);
      }
    }
    ExtensionOfSuffix(stem, ext);
    ExtensionOfSuffix(stem, ext');
    assert Lower(ext) == Lower(ext');
  }

  // ----- the upload page's configuration -----

  const PageMaxMB: nat := 30
  const PageTypes: seq<string> := [".pdf", ".md"]

  /** With the upload page's settings a file of exactly 30 MB passes the size
      check and one byte more is refused for its size, whatever its name. */
  lemma PageSizeBoundary(name: string)
    ensures Validate(File("report.pdf", 31457280), PageMaxMB, PageTypes) == Accepted
    ensures Validate(File(name, 31457281), PageMaxMB, PageTypes) == TooLarge
  {
    assert Lower("pdf") == "pdf";
    PageAcceptsExtension("report", "pdf", ".pdf");
    assert "report.pdf" == "report" + "." + "pdf";
  }

  lemma PageAcceptsExtension(stem: string, ext: string, entry: string)
    requires '.' !in ext && "." + Lower(ext) == entry
    ensures Extension(stem + "." + ext) == entry
  {
    ExtensionOfSuffix(stem, ext);
  }

  /** With the upload page's settings `report.PDF` is accepted: the
      extension is compared lower-cased. */
  lemma PageAcceptsUpperCasePdf()
    ensures Validate(File("report.PDF", 1), PageMaxMB, PageTypes) == Accepted
  {
    assert Lower("PDF") == "pdf";
    PageAcceptsExtension("report", "PDF", ".pdf");
    assert "report.PDF" == "report" + "." + "PDF";
  }

  /** With the upload page's settings `report.exe` is refused for its type. */
  lemma PageRefusesExe()
    ensures Validate(File("report.exe", 1), PageMaxMB, PageTypes) == UnsupportedType
  {
    assert Lower("exe") == "exe";
    PageAcceptsExtension("report", "exe", ".exe");
    assert "report.exe" == "report" + "." + "exe";
  }

  /** A dot-less `README` has the extension `.readme` and is refused. */
  lemma PageRefusesDotlessName()
    ensures Extension("README") == ".readme"
    ensures Validate(File("README", 1), PageMaxMB, PageTypes) == UnsupportedType
  {
    ReadmeExtension();
  }

  lemma ReadmeExtension()
    ensures Extension("README") == ".readme"
  {
    var name := "README";
    assert '.' !in name;
    ExtensionOfDotlessName(name);
    LowerReadme();
  }

  lemma LowerReadme()
    ensures Lower("README") == "readme"
  {
    var low := Lower("README");
    assert low[0] == 'r' && low[1] == 'e' && low[2] == 'a';
    assert low[3] == 'd' && low[4] == 'm' && low[5] == 'e';
  }
}

=== FILE: uri.dfy ===
/** ECMAScript `encodeURIComponent`, which the chat components apply to the
    question before putting it in the stream URL, and a decoder that undoes it.

    Dafny's `char` is a Unicode scalar value, so there are no lone surrogates
    and the encoder never fails. */
module Uri {
  import opened Optional

  newtype byte = x: int | 0 <= x < 256

  /** Characters `encodeURIComponent` leaves as they are: ASCII letters,
      digits and the marks - _ . ! ~ * ' ( ). */
  predicate IsUnreserved(c: char) {
    || ('A' <= c <= 'Z') || ('a' <= c <= 'z') || ('0' <= c <= '9')
    || c == '-' || c == '_' || c == '.' || c == '!' || c == '~'
    || c == '*' || c == '\'' || c == '(' || c == ')'
  }

  const HexDigits: string := "0123456789ABCDEF"

  /** The UTF-8 encoding of one scalar value. */
  function Utf8(c: char): (bs: seq<byte>)
    ensures 1 <= |bs| <= 4
  {
    var n := c as int;
    if n < 0x80 then [n as byte]
    else if n < 0x800 then [(0xC0 + n / 64) as byte, (0x80 + n % 64) as byte]
    else if n < 0x10000 then
      [(0xE0 + n / 4096) as byte, (0x80 + (n / 64) % 64) as byte, (0x80 + n % 64) as byte]
    else
      [(0xF0 + n / 262144) as byte, (0x80 + (n / 4096) % 64) as byte,
       (0x80 + (n / 64) % 64) as byte, (0x80 + n % 64) as byte]
  }

  /** A character `encodeURIComponent` may output. */
  predicate IsEncoded(c: char) {
    c == '%' || IsUnreserved(c)
  }

  /** `%` followed by two upper-case hexadecimal digits. */
  function Percent(b: byte): (r: string)
    ensures |r| == 3 && r[0] == '%'
  {
    ['%', HexDigits[b / 16], HexDigits[b % 16]]
  }

  function PercentAll(bs: seq<byte>): (r: string)
    ensures |r| == 3 * |bs|
  {
    if bs == [] then [] else Percent(bs[0]) + PercentAll(bs[1..])
  }

  /** Escapes are made of `%` and hexadecimal digits only. */
  lemma {:induction false} PercentAllEncoded(bs: seq<byte>)
    ensures forall i :: 0 <= i < |PercentAll(bs)| ==> IsEncoded(PercentAll(bs)[i])
  {
    if bs != [] {
      var p := Percent(bs[0]);
      assert IsUnreserved(p[1]) && IsUnreserved(p[2]);
      PercentAllEncoded(bs[1..]);
    }
  }

  function EncodeChar(c: char): (r: string)
    ensures 1 <= |r|
    ensures forall i :: 0 <= i < |r| ==> IsEncoded(r[i])
  {
    if IsUnreserved(c) then [c]
    else
      PercentAllEncoded(Utf8(c));
      PercentAll(Utf8(c))
  }

  /** `encodeURIComponent(s)`: the result uses only unreserved characters and
      `%`, so it holds no `&`, `=`, `?` or `#` that would end a query value. */
  function Encode(s: string): (r: string)
    ensures |r| >= |s|
    ensures forall i :: 0 <= i < |r| ==> IsEncoded(r[i])
  {
    if s == [] then [] else EncodeChar(s[0]) + Encode(s[1..])
  }

  // ----- decoding -----

  function HexValue(c: char): Option<int> {
    if '0' <= c <= '9' then Some(c as int - '0' as int)
    else if 'A' <= c <= 'F' then Some(c as int - 'A' as int + 10)
    else if 'a' <= c <= 'f' then Some(c as int - 'a' as int + 10)
    else None
  }

  /** The byte written as `%HH` at position `i` of `s`, if there is one. */
  function ByteAt(s: string, i: nat): (r: Option<byte>) {
    if i + 3 <= |s| && s[i] == '%' then
      match (HexValue(s[i + 1]), HexValue(s[i + 2]))
      case (Some(h), Some(l)) => Some((16 * h + l) as byte)
      case _ => None
    else None
  }

  /** The six payload bits of a UTF-8 continuation byte at position `i`. */
  function ContinuationAt(s: string, i: nat): (r: Option<int>)
    ensures r.Some? ==> 0 <= r.value < 64
  {
    match ByteAt(s, i)
    case Some(b) => if 0x80 <= b < 0xC0 then Some(b as int - 0x80) else None
    case None => None
  }

  predicate IsScalar(n: int) {
    (0 <= n < 0xD800) || (0xE000 <= n < 0x110000)
  }

  /** Decodes the first character of `s` and says how many characters of
      `s` it took. Overlong forms and surrogates are refused. */
  function DecodeOne(s: string): (r: Option<(char, nat)>)
    requires s != []
    ensures r.Some? ==> 1 <= r.value.1 <= |s|
  {
    if s[0] != '%' then Some((s[0], 1))
    else
      match ByteAt(s, 0)
      case None => None
      case Some(b) =>
        if b < 0x80 then Some((b as int as char, 3))
        else if 0xC0 <= b < 0xE0 then
          match ContinuationAt(s, 3)
          case None => None
          case Some(c1) =>
            var n := (b as int - 0xC0) * 64 + c1;
            if 0x80 <= n then Some((n as char, 6)) else None
        else if 0xE0 <= b < 0xF0 then
          match (ContinuationAt(s, 3), ContinuationAt(s, 6))
          case (Some(c1), Some(c2)) =>
            var n := (b as int - 0xE0) * 4096 + c1 * 64 + c2;
            if 0x800 <= n && IsScalar(n) then Some((n as char, 9)) else None
          case _ => None
        else if 0xF0 <= b < 0xF8 then
          match (ContinuationAt(s, 3), ContinuationAt(s, 6), ContinuationAt(s, 9))
          case (Some(c1), Some(c2), Some(c3)) =>
            var n := (b as int - 0xF0) * 262144 + c1 * 4096 + c2 * 64 + c3;
            if 0x10000 <= n && IsScalar(n) then Some((n as char, 12)) else None
          case _ => None
        else None
  }

  /** Percent-decodes `s` and reads the bytes as UTF-8; `None` on a
      malformed escape or byte sequence. */
  function Decode(s: string): Option<string>
    decreases |s|
  {
    if s == [] then Some([])
    else
      match DecodeOne(s)
      case None => None
      case Some((c, k)) =>
        match Decode(s[k..])
        case None => None
        case Some(t) => Some([c] + t)
  }

  // ----- round trip -----

  lemma HexDigitValue(v: int)
    requires 0 <= v < 16
    ensures HexValue(HexDigits[v]) == Some(v)
  {
  }

  lemma PercentRead(b: byte, s: string, i: nat)
    requires i + 3 <= |s| && s[i..i + 3] == Percent(b)
    ensures s[i] == '%' && ByteAt(s, i) == Some(b)
  {
    assert s[i + 1] == s[i..i + 3][1] == HexDigits[b / 16];
    assert s[i + 2] == s[i..i + 3][2] == HexDigits[b % 16];
    HexDigitValue((b / 16) as int);
    HexDigitValue((b % 16) as int);
  }

  /** The escape of the `j`-th byte sits at position `3 * j`, whatever
      follows the escapes. */
  lemma {:induction false} PercentAllSlice(bs: seq<byte>, rest: string, j: nat)
    requires j < |bs|
    ensures (PercentAll(bs) + rest)[3 * j..3 * j + 3] == Percent(bs[j])
  {
    var tail := PercentAll(bs[1..]) + rest;
    assert PercentAll(bs) + rest == Percent(bs[0]) + tail;
    if j > 0 {
      PercentAllSlice(bs[1..], rest, j - 1);
      assert (Percent(bs[0]) + tail)[3 * j..3 * j + 3] == tail[3 * (j - 1)..3 * (j - 1) + 3];
    }
  }

  /** Each byte of `PercentAll(bs)` can be read back, whatever follows. */
  lemma EscapeAt(bs: seq<byte>, rest: string, j: nat)
    requires j < |bs|
    ensures (PercentAll(bs) + rest)[3 * j] == '%'
    ensures ByteAt(PercentAll(bs) + rest, 3 * j) == Some(bs[j])
  {
    PercentAllSlice(bs, rest, j);
    PercentRead(bs[j], PercentAll(bs) + rest, 3 * j);
  }

  lemma ContinuationRead(s: string, i: nat, x: int)
    requires 0 <= x < 64 && ByteAt(s, i) == Some((0x80 + x) as byte)
    ensures ContinuationAt(s, i) == Some(x)
  {
  }

  /** `DecodeOne` on a two-byte sequence, stated on the bytes. */
  lemma DecodeTwo(s: string, b0: byte, b1: byte)
    requires s != [] && s[0] == '%' && ByteAt(s, 0) == Some(b0) && ByteAt(s, 3) == Some(b1)
    requires 0xC0 <= b0 < 0xE0 && 0x80 <= b1 < 0xC0
    requires 0x80 <= (b0 as int - 0xC0) * 64 + (b1 as int - 0x80)
    ensures DecodeOne(s) == Some((((b0 as int - 0xC0) * 64 + (b1 as int - 0x80)) as char, 6))
  {
    ContinuationRead(s, 3, b1 as int - 0x80);
  }

  /** `DecodeOne` on a three-byte sequence, stated on the bytes. */
  lemma DecodeThree(s: string, b0: byte, b1: byte, b2: byte)
    requires s != [] && s[0] == '%'
    requires ByteAt(s, 0) == Some(b0) && ByteAt(s, 3) == Some(b1) && ByteAt(s, 6) == Some(b2)
    requires 0xE0 <= b0 < 0xF0 && 0x80 <= b1 < 0xC0 && 0x80 <= b2 < 0xC0
    requires var n := (b0 as int - 0xE0) * 4096 + (b1 as int - 0x80) * 64 + (b2 as int - 0x80);
      0x800 <= n && IsScalar(n)
    ensures DecodeOne(s) ==
      Some((((b0 as int - 0xE0) * 4096 + (b1 as int - 0x80) * 64 + (b2 as int - 0x80)) as char, 9))
  {
    ContinuationRead(s, 3, b1 as int - 0x80);
    ContinuationRead(s, 6, b2 as int - 0x80);
  }

  /** `DecodeOne` on a four-byte sequence, stated on the bytes. */
  lemma DecodeFour(s: string, b0: byte, b1: byte, b2: byte, b3: byte)
    requires s != [] && s[0] == '%'
    requires ByteAt(s, 0) == Some(b0) && ByteAt(s, 3) == Some(b1)
    requires ByteAt(s, 6) == Some(b2) && ByteAt(s, 9) == Some(b3)
    requires 0xF0 <= b0 < 0xF8 && 0x80 <= b1 < 0xC0 && 0x80 <= b2 < 0xC0 && 0x80 <= b3 < 0xC0
    requires var n := (b0 as int - 0xF0) * 262144 + (b1 as int - 0x80) * 4096
                      + (b2 as int - 0x80) * 64 + (b3 as int - 0x80);
      0x10000 <= n && IsScalar(n)
    ensures DecodeOne(s) ==
      Some((((b0 as int - 0xF0) * 262144 + (b1 as int - 0x80) * 4096
             + (b2 as int - 0x80) * 64 + (b3 as int - 0x80)) as char, 12))
  {
    ContinuationRead(s, 3, b1 as int - 0x80);
    ContinuationRead(s, 6, b2 as int - 0x80);
    ContinuationRead(s, 9, b3 as int - 0x80);
  }

  /** A two-byte encoding: lead and continuation bytes in range, and
      their payload bits make up the character again. */
  lemma Utf8TwoBytes(c: char)
    requires 0x80 <= c as int < 0x800
    ensures var bs := Utf8(c);
      && |bs| == 2 && 0xC0 <= bs[0] < 0xE0 && 0x80 <= bs[1] < 0xC0
      && (bs[0] as int - 0xC0) * 64 + (bs[1] as int - 0x80) == c as int
  {
  }

  lemma Utf8ThreeBytes(c: char)
    requires 0x800 <= c as int < 0x10000
    ensures var bs := Utf8(c);
      && |bs| == 3 && 0xE0 <= bs[0] < 0xF0 && 0x80 <= bs[1] < 0xC0 && 0x80 <= bs[2] < 0xC0
      && (bs[0] as int - 0xE0) * 4096 + (bs[1] as int - 0x80) * 64 + (bs[2] as int - 0x80) == c as int
  {
    ThreeByteArithmetic(c as int);
  }

  lemma Utf8FourBytes(c: char)
    requires 0x10000 <= c as int
    ensures var bs := Utf8(c);
      && |bs| == 4 && 0xF0 <= bs[0] < 0xF8
      && 0x80 <= bs[1] < 0xC0 && 0x80 <= bs[2] < 0xC0 && 0x80 <= bs[3] < 0xC0
      && (bs[0] as int - 0xF0) * 262144 + (bs[1] as int - 0x80) * 4096
         + (bs[2] as int - 0x80) * 64 + (bs[3] as int - 0x80) == c as int
  {
    FourByteArithmetic(c as int);
  }

  lemma DecodeOneOneByte(c: char, rest: string)
    requires c as int < 0x80
    ensures DecodeOne(PercentAll(Utf8(c)) + rest) == Some((c, 3))
  {
    var bs := Utf8(c);
    assert |bs| == 1 && bs[0] as int == c as int;
    EscapeAt(bs, rest, 0);
  }

  lemma DecodeOneTwoBytes(c: char, rest: string)
    requires 0x80 <= c as int < 0x800
    ensures DecodeOne(PercentAll(Utf8(c)) + rest) == Some((c, 6))
  {
    var bs := Utf8(c);
    Utf8TwoBytes(c);
    EscapeAt(bs, rest, 0);
    EscapeAt(bs, rest, 1);
    DecodeTwo(PercentAll(bs) + rest, bs[0], bs[1]);
  }

  lemma DecodeOneThreeBytes(c: char, rest: string)
    requires 0x800 <= c as int < 0x10000
    ensures DecodeOne(PercentAll(Utf8(c)) + rest) == Some((c, 9))
  {
    var bs := Utf8(c);
    Utf8ThreeBytes(c);
    EscapeAt(bs, rest, 0);
    EscapeAt(bs, rest, 1);
    EscapeAt(bs, rest, 2);
    DecodeThree(PercentAll(bs) + rest, bs[0], bs[1], bs[2]);
  }

  lemma DecodeOneFourBytes(c: char, rest: string)
    requires 0x10000 <= c as int
    ensures DecodeOne(PercentAll(Utf8(c)) + rest) == Some((c, 12))
  {
    var bs := Utf8(c);
    Utf8FourBytes(c);
    EscapeAt(bs, rest, 0);
    EscapeAt(bs, rest, 1);
    EscapeAt(bs, rest, 2);
    EscapeAt(bs, rest, 3);
    DecodeFour(PercentAll(bs) + rest, bs[0], bs[1], bs[2], bs[3]);
  }

  lemma ThreeByteArithmetic(n: int)
    requires 0x800 <= n < 0x10000
    ensures (n / 4096) * 4096 + ((n / 64) % 64) * 64 + n % 64 == n
  {
    assert n == 64 * (n / 64) + n % 64;
    assert n / 64 == 64 * (n / 4096) + (n / 64) % 64;
  }

  lemma FourByteArithmetic(n: int)
    requires 0x10000 <= n < 0x110000
    ensures (n / 262144) * 262144 + ((n / 4096) % 64) * 4096 + ((n / 64) % 64) * 64 + n % 64 == n
  {
    assert n == 64 * (n / 64) + n % 64;
    assert n / 64 == 64 * (n / 4096) + (n / 64) % 64;
    assert n / 4096 == 64 * (n / 262144) + (n / 4096) % 64;
  }

  /** Decoding the encoding of `c`, followed by anything, yields `c` and
      consumes exactly its encoding. */
  lemma DecodeOneEncodeChar(c: char, rest: string)
    ensures DecodeOne(EncodeChar(c) + rest) == Some((c, |EncodeChar(c)|))
  {
    if IsUnreserved(c) {
      assert EncodeChar(c) == [c];
      assert ([c] + rest)[0] == c != '%';
    } else {
      var n := c as int;
      assert EncodeChar(c) == PercentAll(Utf8(c));
      if n < 0x80 {
        DecodeOneOneByte(c, rest);
      } else if n < 0x800 {
        DecodeOneTwoBytes(c, rest);
      } else if n < 0x10000 {
        DecodeOneThreeBytes(c, rest);
      } else {
        DecodeOneFourBytes(c, rest);
      }
    }
  }

  /** `Decode(Encode(s)) == Some(s)`: the encoder loses nothing. */
  lemma {:induction false} DecodeEncode(s: string)
    ensures Decode(Encode(s)) == Some(s)
  {
    if s != [] {
      var e := EncodeChar(s[0]);
      var t := Encode(s[1..]);
      assert Encode(s) == e + t;
      DecodeOneEncodeChar(s[0], t);
      assert (e + t)[|e|..] == t;
      DecodeEncode(s[1..]);
      assert [s[0]] + s[1..] == s;
    }
  }

  /** Different strings have different encodings. */
  lemma EncodeInjective(s: string, t: string)
    requires Encode(s) == Encode(t)
    ensures s == t
  {
    DecodeEncode(s);
    DecodeEncode(t);
  }
}
